=== FILE: README.md ===
# LoanQueryAI core, modelled in Dafny

LoanQueryAI answers questions about a loan-application dataset with
retrieval-augmented generation:

- Every dataset row is rendered as an English sentence, its *canonical text*. The texts are embedded into a flat inner-product index, which is persisted beside a pickled metadata file.
- A query is embedded and searched. The matching texts go into a prompt for a language model, or into a canned demo-mode answer when no model key is set.

This project models the sequential logic of that pipeline and proves its properties:

- **`Canonicaliser`, `CanonicalText`** model `DataPreprocessor.row_to_text`. Each field has its own policy for missing, blank, sentinel and unconvertible values. The fragments are set into a fixed template.
- **`IndexStore`** models the reuse-or-rebuild decision of `preprocess_data` and the rebuild itself. The rebuild renders one text per row with `row_to_text` as written, in row order, and persists the texts with the dataframe. The module also models `load_preprocessed_data`.
- **`Retriever`** models `RAGRetriever.retrieve`: filtering the raw search slots and mapping them to (text, score) pairs. It also models the load-or-preprocess fallback of `load_data` and the shape of `get_dataset_info`.
- **`LlmInterface`** models `GroqLLM`:
  - the mode flag of `set_api_key`;
  - the prompt serialiser `format_prompt`;
  - the keyword dispatch of the demo branch of `generate_response`;
  - the word-by-word re-emission of `generate_streaming_response`.
- **`Text`** models the Python string operations these rely on: `strip`, `lower`, `upper`, `split()`, `in` and `str(int)`. **`Cells`** models the dataframe cell values with `str()` and `float()` on them. **`Wrappers`** holds `Option` and `Result`.

Modelling choices:

- **Cells.** A cell is `Missing`, `Str`, `Int` or `Float`. A float is finite, negative zero, infinite or NaN: a finite float holds an exact real, which cannot tell -0.0 from 0.0, so negative zero is a value of its own. A blank cell of a float64 column is `Float(NaN)`; both it and `Missing` count as missing and print as "nan". A row is a map from column name to cell; a column the dataset lacks is absent from the map. The row's label (`row.name`) is its position.
- **Rows as `iterrows` yields them.** `df.iterrows()` builds each row from `df.values`, whose dtype is common to all columns. When every column is int64 or float64 and one of them is float64, each integer reaches `row_to_text` as the float it converts to, so `str()` renders it as a float (`2.0`, not `2`). A frame with any string or missing-value token yields its cells unchanged (`IndexStore.IterRows`). The rebuild renders these rows, and the metadata stores the dataframe as read.
- **Float text.** Parsing a string with `float(text)` and printing a finite float with `str(x)` depend on exact decimal algorithms. They enter the model as the abstract pair `Numerics(parse, repr)`, so every property holds for any such pair. NaN, the infinities and negative zero print as "nan", "inf", "-inf" and "-0.0".
- **Integers to floats.** `float(i)` of an int64 value is rounded to the nearest double, ties to even: it is exact below 2^53 in magnitude (`Cells.IntToFloatExact`).
- **Case and whitespace.** Case mapping is ASCII. Whitespace is the ASCII set `str.isspace` accepts, including the separators U+001C to U+001F.
- **Files.** The persisted files are datatypes:
  - an absent, unreadable or saved index, where a saved index records the texts it embeds in insertion order;
  - an absent, unreadable or saved metadata dictionary, which may lack either key.
- **Environment.** The file system and the embedding step are inputs: `Env` says whether the directory can be made, what the CSV holds, whether embedding succeeds, and how each write goes. A write either completes, cannot open its file (the file is unchanged), or fails after opening (the file is truncated and unreadable).
- **Search.** The search is foreign numeric code. Its raw output for one query (`Slot(score, idx)` values) is an input to `Retrieve`. `SearchContract` states what the flat index promises about it.
- **Network.** The network reply of `generate_real_response` is a function parameter of `GenerateResponse`.

Facts about the code that the model keeps:

- `load_data` catches only `FileNotFoundError`, so an unreadable metadata file is not rebuilt; its error propagates (`Retriever.LoadDataFallback`).
- A missing or empty `Loan_Status` is not an error. It reads "denied" (`Canonicaliser.StatusPolicy`).
- `retrieve` neither sorts nor breaks ties, and it does not check `top_k`. It keeps the order of the search output.
- The index and metadata files are not written atomically. A metadata write that fails after `write_index` leaves the new index beside the old or a truncated metadata file (`IndexStore.Regenerate`, `IndexStore.TornWriteLoads`).
- One row on which `row_to_text` raises makes `preprocess_data` return False for the whole dataset, with no file touched (`IndexStore.PreprocessData`).

## Model

| member | source | states |
|---|---|---|
| Canonicaliser.CategoricalPolicy | data_preprocessor.py:53-57 | Gender (and in the same way Education, lines 73-77, and Property_Area, lines 94-98): a missing or blank-after-strip value gives the field's unknown phrase; any other value gives the stripped value lower-cased, which is non-empty and already lower case |
| Canonicaliser.LowerIsYes | data_preprocessor.py:61 | `t.lower() == 'yes'` holds exactly for the eight case variants of "yes" |
| Canonicaliser.YesNoPolicy | data_preprocessor.py:60-61 | Married (and Self_Employed, lines 80-81) takes one of its two phrases. The affirmative one applies exactly when the stripped value is a case variant of "yes". An absent or missing value, a float NaN included, takes the negative one |
| Canonicaliser.UpperIsY | data_preprocessor.py:102 | `t.upper() == 'Y'` holds exactly for "y" and "Y" |
| Canonicaliser.StatusPolicy | data_preprocessor.py:101-102 | the status is "approved" exactly when the stripped Loan_Status is "y" or "Y", otherwise "denied". An absent or missing status, a float NaN included, is "denied", not an error |
| Canonicaliser.DependentsPolicy | data_preprocessor.py:64-70 | missing or blank gives "unknown number of"; exactly "3+" gives "3 or more"; any other stripped value passes through; the phrase is never empty |
| Canonicaliser.CreditPolicy | data_preprocessor.py:84-91 | one of three phrases. "unknown credit history" applies exactly when the value is missing or not convertible. "has credit history" applies exactly when it converts to 1.0 |
| Canonicaliser.LoanAmountPolicy | data_preprocessor.py:105-112 | LoanAmount reads "an unspecified amount" exactly when the value is missing or not convertible to a float. Otherwise it reads the float's `str()` followed by " thousand" |
| Canonicaliser.NegativeZeroWording | data_preprocessor.py:105-140 | a float -0.0 keeps its sign where the field prints it ("-0.0 thousand", "income of -0.0"). It equals zero where it is compared, so a co-applicant income of -0.0 reads "no co-applicant income". It truncates to a term of "0 months term" |
| Canonicaliser.IncomePolicy | data_preprocessor.py:114-121 | ApplicantIncome reads "unspecified income" exactly when the value is missing or not convertible to a float. Otherwise it reads "income of " followed by the float's `str()` |
| Canonicaliser.CoapplicantPolicy | data_preprocessor.py:123-130 | "no co-applicant income" exactly for a missing value or a numeric zero; "unspecified co-applicant income" exactly for an unconvertible non-zero value; otherwise the float rendering |
| Canonicaliser.TermPhraseAsWritten | data_preprocessor.py:133-140 | the term phrase as written raises exactly when the value converts to an infinite float |
| Canonicaliser.TermPolicy | data_preprocessor.py:133-140 | the corrected term agrees with `row_to_text` as written wherever it does not raise. It is "unspecified term" exactly for missing, unconvertible and non-finite values. A finite value is truncated toward zero: a non-negative one gives `m months term` with m <= value < m + 1, and a negative one gives `n months term` with n <= 0 and n - 1 < value <= n |
| Canonicaliser.LoanIdPolicy | data_preprocessor.py:50 | the id is the stripped Loan_ID. When the column is absent it is "Unknown_" followed by the row's label in decimal |
| Canonicaliser.RowToTextAsWritten | data_preprocessor.py:47-149 | `row_to_text` as written raises exactly when the term phrase raises, and otherwise returns the corrected canonical text |
| Canonicaliser.RowToText | data_preprocessor.py:47-149 | the corrected canonical text exists for every row. It opens "Applicant {id} is a " and closes " area. The loan was {status}." |
| Cells.IntToFloatExact | data_preprocessor.py:138 | `float()` of an integer below 2^53 in magnitude is exact, so the month count of such a term is the integer itself |
| Cells.RoundToDoubleNearest | data_preprocessor.py:138 | `float()` of a larger integer lands on a multiple of the unit of its 53rd binary digit, within half that unit, so an integer that is no such multiple changes value |
| Cells.RoundToDoubleBest | data_preprocessor.py:138 | no multiple of that unit lies closer to the integer than its conversion: the conversion is a nearest representable value |
| Text.StripRemovesOuterSpace | data_preprocessor.py:53 | `strip()` returns a slice of its argument that is preceded and followed only by whitespace, and that neither starts nor ends with whitespace: it removes exactly the leading and trailing whitespace |
| Text.NatToStringRoundTrip | data_preprocessor.py:138 | the decimal month count in a term phrase reads back as the number it renders |
| Canonicaliser.DescribeOpensAndCloses | data_preprocessor.py:143-147 | any filled template starts "Applicant {id} is a " and ends " area. The loan was {status}." |
| CanonicalText.DescribeSlot | data_preprocessor.py:143-147 | each of the thirteen fragments sits between its two template separators at its own slot offset. The offsets strictly increase in template order, and each slot starts right after the previous fragment |
| CanonicalText.TextStatesOutcome | data_preprocessor.py:101-147 | a text ends " area. The loan was approved." exactly when the stripped status is "y" or "Y", and ends " area. The loan was denied." exactly otherwise |
| CanonicalText.MissingValueWording | data_preprocessor.py:64-91 | a record with no Dependents, no Credit_History and Self_Employed "No" has a text that says "not self-employed", "unknown number of dependents" and "unknown credit history", each between its two template separators |
| CanonicalText.ThreePlusWording | data_preprocessor.py:67-68 | a "3+" Dependents value appears in the text as "with 3 or more dependents and" |
| CanonicalText.InfiniteTermRaises | data_preprocessor.py:137-140 | a term of float infinity, or the text "inf", makes `row_to_text` as written raise OverflowError, while the corrected term reads "unspecified term" |
| IndexStore.Texts | data_preprocessor.py:186-189 | there are exactly as many texts as rows |
| IndexStore.IterRowsCells | data_preprocessor.py:187 | iterating keeps every row's columns. A frame holding a string or a missing-value token yields its rows unchanged. A frame of only ints and floats, with a float among them, yields rows with no integer left: an integer cell is rendered by `str()` as the float it converts to, and every other cell is unchanged |
| IndexStore.BuildTexts | data_preprocessor.py:185-189 | the rebuild loop raises exactly when some row, as `iterrows` yields it, makes `row_to_text` raise. Otherwise it produces exactly the texts of those rows, one per row, in row order |
| IndexStore.RaisingRow | data_preprocessor.py:187-189 | one row on which `row_to_text` raises is enough to stop the whole rebuild |
| IndexStore.RenderRows | data_preprocessor.py:186-189 | the loop over rows raises exactly when some row makes `row_to_text` raise, and otherwise returns exactly the rows' texts in order |
| IndexStore.TextsAligned | data_preprocessor.py:186-189 | text `i` is row `i` rendered under its label `i` |
| IndexStore.Freshness | data_preprocessor.py:162-180 | the files are reused exactly when both exist, the metadata loads as a dictionary, and its stored dataframe is present and equal to the current one; anything else rebuilds |
| IndexStore.ChangedDatasetRebuilds | data_preprocessor.py:170-172 | a stored dataframe that differs from the current one in any way triggers a rebuild |
| IndexStore.Regenerate | data_preprocessor.py:182-225 | the rebuild succeeds exactly when every row, as `iterrows` yields it, renders, embedding succeeds and both writes complete. It then leaves an index over exactly the row texts and metadata holding the same texts and the dataframe. A raising row, a failed embedding or an index file that cannot be opened leaves both files unchanged. A failed rebuild leaves the metadata file either as it was or unreadable |
| IndexStore.PreprocessData | data_preprocessor.py:151-229 | a directory or CSV failure gives False without raising and leaves the files unchanged. Current files are reused untouched. Stale ones are rebuilt, with success exactly when every row renders, embedding succeeds and both writes complete. A row on which `row_to_text` raises gives False with the files unchanged. On success the files are either the reused ones or aligned with the dataset |
| IndexStore.TornWriteLoads | data_preprocessor.py:213-221 | when the index is written but the metadata file cannot be opened, preprocessing fails, yet the files still load: old metadata from a dataset of another size is paired with the new index, which does not embed its texts |
| IndexStore.PreprocessIdempotent | data_preprocessor.py:163-175 | after a successful run the files are current, and a second run on the same dataset reuses them unchanged |
| IndexStore.LoadPreprocessedData | data_preprocessor.py:231-243 | the load reports not-found exactly when either file is absent. It succeeds exactly when both files are readable and hold both keys, and then returns what they hold |
| IndexStore.LoadAfterRebuild | data_preprocessor.py:231-243 | files left by a rebuild load back as the texts of the rows `iterrows` yields, an index over exactly those texts, and the dataset itself |
| Retriever.PyIndex | rag_retriever.py:45 | `texts[idx]` is the element at a position in range and raises exactly for a position outside `-len .. len-1` |
| Retriever.Retrieve | rag_retriever.py:42-47 | the loop computes the reference result `Kept`: -1 slots dropped, every other slot looked up, search order kept, the first failing lookup raising |
| Retriever.KeptFailureSticks | rag_retriever.py:45 | once a lookup fails, the whole retrieval raises IndexError |
| Retriever.FilledExactly | rag_retriever.py:43-44 | the filled positions are strictly increasing and include every slot whose index is not -1; there are at most as many as slots |
| Retriever.KeptInRange | rag_retriever.py:43-45 | with every index -1 or in range, retrieval does not raise. It returns one result per filled slot, and the k-th result is the text at the k-th filled slot's index with that slot's score |
| Retriever.ContractInRange | rag_retriever.py:39-45 | search output that keeps the index's contract over an index of the texts is in range, so every lookup succeeds |
| Retriever.RetrieveUnderContract | rag_retriever.py:39-47 | under the index's contract, retrieval returns at most `top_k` results, with scores non-increasing as the search gave them |
| Retriever.LoadData | rag_retriever.py:17-28 | a successful start holds exactly what one load of the final files returns. Without preprocessing the files are untouched; with it they are what preprocessing left |
| Retriever.NotFoundIsStale | data_preprocessor.py:163 | files reported not-found are never current, so the preprocessing that follows always rebuilds |
| Retriever.LoadDataFallback | rag_retriever.py:17-28 | `load_data` preprocesses exactly when the first load reports not-found. A first load that succeeds is returned as is. Any other load error propagates with the files untouched. A successful start holds exactly what one load of the final files returns |
| Retriever.LoadDataRebuilds | rag_retriever.py:22-28 | after a not-found load, `load_data` succeeds exactly when the rebuild does (every row renders, embedding succeeds, both writes complete), and otherwise raises the preprocessing failure. On success, index, texts and dataframe come from the one fresh set of files: the dataset and its row texts, with the index over those texts |
| Retriever.UnreadableIndexIsKept | rag_retriever.py:19-22 | an unreadable index beside current metadata is reused by preprocessing, and `load_data` then raises rather than rebuilding |
| Retriever.GetDatasetInfo | rag_retriever.py:49-57 | no dataframe gives the empty overview. Otherwise the overview has the row count and the column names in order, and its sample is the first min(5, rows) rows |
| LlmInterface.Init | llm_interface.py:7-12 | a fresh interface stores the key, or "" when none is given, and starts in demo mode |
| LlmInterface.SetApiKey | llm_interface.py:14-17 | the key is stored, and the real API is wanted exactly when the key is non-empty |
| LlmInterface.GenerateResponse | llm_interface.py:66-71 | the network reply for the formatted prompt is used exactly when the flag is set and the key is non-empty. Otherwise the answer is the demo one, which, given context, opens with the demo header |
| LlmInterface.ResponseRouting | llm_interface.py:7-71 | a fresh interface answers in demo mode. After `set_api_key` it sends the prompt with that key exactly when the key is non-empty, and answers in demo mode otherwise |
| LlmInterface.FormatContext | llm_interface.py:21-23 | the context loop yields the concatenation of "{i}. {chunk}\n\n" over the chunks numbered from 1 |
| LlmInterface.EmptyContextBlock | llm_interface.py:21-23 | the context block is empty exactly when there are no chunks |
| LlmInterface.FormatPrompt | llm_interface.py:19-34 | the prompt opens with "Context:\n" and the numbered block, contains the question line, and ends with the fixed instruction |
| LlmInterface.PromptShape | llm_interface.py:21-23 | the prompt contains every chunk as its numbered line |
| LlmInterface.InstructionAsksForAnswer | llm_interface.py:30-32 | the fixed instruction ends with a blank line and "Answer:" |
| LlmInterface.PromptIgnoresScores | llm_interface.py:22-23 | two chunk lists with the same texts in the same order give the same prompt, whatever their scores |
| LlmInterface.FirstMatch | llm_interface.py:93-96 | the dispatch picks the first key, in order, that occurs in the text: that key occurs and no earlier one does. Nothing is picked exactly when no key occurs |
| LlmInterface.MatchKeyword | llm_interface.py:94-96 | the keyword loop with early return picks the same key as `FirstMatch` |
| LlmInterface.DemoResponse | llm_interface.py:74-114 | without context chunks the demo answer is the fixed no-information text, whatever the query. With context it opens with the demo header |
| LlmInterface.DemoPicksFirstKeyword | llm_interface.py:78-96 | with context, the demo answer is the canned text of the first keyword occurring in the lower-cased query (approval, denied, income, self-employed, credit, urban, in that order), between the demo header and footer |
| LlmInterface.DemoDefault | llm_interface.py:98-114 | with context and no keyword in the query, the demo answer is the default one, and it contains the sentence reporting the number of chunks |
| Text.WordsAreWords | llm_interface.py:121 | every word of `split()` is non-empty and free of whitespace |
| Text.WordsKeepInk | llm_interface.py:121 | the words of `split()`, put back together, are exactly the non-whitespace characters of the text in order |
| LlmInterface.StreamedIsSpaced | llm_interface.py:121-123 | the streamed pieces, put together, are each word followed by exactly one space |
| LlmInterface.StreamRoundTrip | llm_interface.py:116-123 | splitting the streamed text again gives back exactly the words of the response, and the stream carries every non-whitespace character of the response in order |
| LlmInterface.GenerateStreamingResponse | llm_interface.py:116-123 | each streamed piece is a non-empty whitespace-free word followed by one space |

## Left out

- The embedding model, `faiss.normalize_L2`, the index's inner-product search and `faiss.read_index`/`write_index` are foreign numeric code. The search output is an input, and `SearchContract` is its assumed contract.
- `pd.read_csv` parsing and its missing-value tokens, pickle, and `os.path.exists`/`os.makedirs` are file I/O. They are modelled as the outcomes in `CsvFile`, `Store`, `Write` and `Env`.
- IndexStore.IterRows: only object, int64 and float64 columns are modelled. A bool column, or a frame of only integer columns, is not given its own dtype rule.
- `DataFrame.equals` is modelled as structural equality of columns and rows. Differences in column dtype that pandas would notice are not represented.
- The per-column statistics of `get_dataset_info` (mean, std, min, max, `value_counts`) are floating-point and library behaviour, so `DatasetInfo` has no `column_stats`.
- `generate_real_response` is an HTTP request with JSON decoding. Its reply, the model's text or its error string, is the function parameter of `GenerateResponse`.
- `time.sleep` in streaming, and all printing, are not modelled.
- `download_dataset` is only modelled through its outcome (`CsvFile`). Its printed summary of missing values has no effect on the result.
- app.py (the Streamlit UI) and setup.py (a command-line wrapper around `preprocess_data`) are not part of this model.
- The exact text of Python's `float(text)` and of `str(x)` for a finite float is abstract (`Numerics`). The model does not claim, for instance, that `float("1")` is 1.0 or that `float("inf")` is infinite.
- Text.Words: whitespace is ASCII only. Python's `str.split()` and `str.strip()` also treat non-ASCII whitespace, such as U+0085, U+00A0 and U+2028, as whitespace, and `lower`/`upper` map non-ASCII letters too.
- Retriever.RetrieveUnderContract: proves non-increasing scores only under the assumed index contract. The model does not check that the flat index actually ranks by inner product.

## Findings

| source | as written | input that shows it | evidently intended | confidence | as-written member | corrected member |
|---|---|---|---|---|---|---|
| data_preprocessor.py:137-140 | `int(float(loan_term))` is guarded by `except (ValueError, TypeError)`, but `int()` of an infinite float raises OverflowError, which escapes `row_to_text`. `preprocess_data` then catches it and returns False for the whole dataset, which the model keeps (`IndexStore.PreprocessData`) | a row whose Loan_Amount_Term is the float `inf`, or the text "inf" in an object column | every value that is not a finite number reads "unspecified term", so that `row_to_text` is total | medium, not executed | Canonicaliser.RowToTextAsWritten | Canonicaliser.TermPolicy |

=== FILE: canonical_text.dfy ===
/** What the canonical text says: its opening and closing sentences, the
    wording of the missing-value policy, and the one input on which
    `row_to_text` raises. */
module CanonicalText {
  import opened Wrappers
  import opened Text
  import opened Cells
  import opened Canonicaliser


  /** Each fragment of a filled template sits between its two separators
      at its own slot, and each slot starts right after the separator and
      fragment of the one before it, so the fragments appear in template
      order. */
  lemma DescribeSlot(p: Phrases, k: nat)
    requires k < 13
    ensures OccursAt(Template[k] + Fragments(p)[k] + Template[k + 1], Describe(p), SlotStart(Template, Fragments(p), k))
    ensures SlotStart(Template, Fragments(p), k) < SlotStart(Template, Fragments(p), k + 1)
    ensures SlotStart(Template, Fragments(p), k + 1) ==
              SlotStart(Template, Fragments(p), k) + |Template[k]| + |Fragments(p)[k]|
    ensures Contains(Describe(p), Template[k] + Fragments(p)[k] + Template[k + 1])
  {
    InterleaveSlotAt(Template, Fragments(p), k);
    InterleaveSlot(Template, Fragments(p), k);
    assert |Template[k]| > 0;
  }

  /** Every canonical text closes by saying the loan was approved exactly
      when the record's status is "Y" in either case, and that it was
      denied otherwise: a missing or unrecognised status never reads as an
      approval. */
  lemma TextStatesOutcome(num: Numerics, name: nat, row: Row)
    ensures EndsWith(RowToText(num, name, row), " area. The loan was approved.") <==>
              StrippedAt(num, row, "Loan_Status") in {"y", "Y"}
    ensures EndsWith(RowToText(num, name, row), " area. The loan was denied.") <==>
              StrippedAt(num, row, "Loan_Status") !in {"y", "Y"}
  {
    StatusPolicy(num, row);
    OutcomeSuffix(RowToText(num, name, row), StatusPhrase(num, row));
  }

  /** A text that closes with one outcome sentence does not close with the
      other. */
  lemma OutcomeSuffix(t: string, status: string)
    requires status == "approved" || status == "denied"
    requires EndsWith(t, " area. The loan was " + status + ".")
    ensures EndsWith(t, " area. The loan was approved.") <==> status == "approved"
    ensures EndsWith(t, " area. The loan was denied.") <==> status == "denied"
  {
    var approved := " area. The loan was approved.";
    var denied := " area. The loan was denied.";
    if status == "approved" {
      assert " area. The loan was " + status + "." == approved;
      SuffixClash(t, approved, denied, 2);
    } else {
      assert " area. The loan was " + status + "." == denied;
      SuffixClash(t, denied, approved, 0);
    }
  }

  /** A text ending in `a` does not end in `b` when, aligned at their ends,
      `a` and `b` differ at position `j` of the shorter one. */
  lemma SuffixClash(t: string, a: string, b: string, j: nat)
    requires EndsWith(t, a)
    requires |a| <= |b| ==> j < |a| && a[j] != b[|b| - |a| + j]
    requires |b| < |a| ==> j < |b| && b[j] != a[|a| - |b| + j]
    ensures !EndsWith(t, b)
  {
    if |b| <= |t| {
      if |a| <= |b| {
        assert t[|t| - |a|..][j] == t[|t| - |b|..][|b| - |a| + j];
      } else {
        assert t[|t| - |b|..][j] == t[|t| - |a|..][|a| - |b| + j];
      }
    }
  }

  /** The missing-value policy on a concrete shape of record: with no
      dependents or credit history recorded and Self_Employed "No", the
      text says so in words. */
  lemma MissingValueWording(num: Numerics, name: nat, row: Row)
    requires IsNaAt(row, "Dependents") && IsNaAt(row, "Credit_History")
    requires "Self_Employed" in row && row["Self_Employed"] == Str("No")
    ensures Contains(RowToText(num, name, row), " who is " + "not self-employed" + " with ")
    ensures Contains(RowToText(num, name, row), " with " + "unknown number of" + " dependents and ")
    ensures Contains(RowToText(num, name, row),
                     " dependents and " + "unknown credit history" + ". They applied for a loan of ")
  {
    MissingValuePhrases(num, name, row);
    DescribeMissingValues(RowPhrases(num, name, row));
  }

  lemma MissingValuePhrases(num: Numerics, name: nat, row: Row)
    requires IsNaAt(row, "Dependents") && IsNaAt(row, "Credit_History")
    requires "Self_Employed" in row && row["Self_Employed"] == Str("No")
    ensures RowPhrases(num, name, row).selfEmployed == "not self-employed"
    ensures RowPhrases(num, name, row).dependents == "unknown number of"
    ensures RowPhrases(num, name, row).credit == "unknown credit history"
  {
    StripNoOuterSpace("No");
    assert StrippedAt(num, row, "Self_Employed") == "No";
  }

  lemma DescribeMissingValues(p: Phrases)
    requires p.selfEmployed == "not self-employed"
    requires p.dependents == "unknown number of" && p.credit == "unknown credit history"
    ensures Contains(Describe(p), " who is " + "not self-employed" + " with ")
    ensures Contains(Describe(p), " with " + "unknown number of" + " dependents and ")
    ensures Contains(Describe(p), " dependents and " + "unknown credit history" + ". They applied for a loan of ")
  {
    DescribeSlot(p, 4);
    DescribeSlot(p, 5);
    DescribeSlot(p, 6);
  }

  /** The "3+" sentinel is spelled out in the text. */
  lemma ThreePlusWording(num: Numerics, name: nat, row: Row)
    requires "Dependents" in row && row["Dependents"] == Str("3+")
    ensures Contains(RowToText(num, name, row), " with " + "3 or more" + " dependents and ")
  {
    ThreePlusSpelledOut(num, name, row);
    DescribeThreePlus(RowPhrases(num, name, row));
  }

  lemma ThreePlusSpelledOut(num: Numerics, name: nat, row: Row)
    requires "Dependents" in row && row["Dependents"] == Str("3+")
    ensures RowPhrases(num, name, row).dependents == "3 or more"
  {
    StripNoOuterSpace("3+");
    assert StrippedAt(num, row, "Dependents") == "3+";
  }

  lemma DescribeThreePlus(p: Phrases)
    requires p.dependents == "3 or more"
    ensures Contains(Describe(p), " with " + "3 or more" + " dependents and ")
  {
    DescribeSlot(p, 5);
  }

  /** The conversion guard of `row_to_text` misses infinities: a record
      whose loan term is an infinite float makes `row_to_text` raise, where
      the corrected canonicaliser still yields a text. */
  lemma InfiniteTermRaises(num: Numerics, name: nat, row: Row)
    requires "Loan_Amount_Term" in row
    requires row["Loan_Amount_Term"] == Float(Inf(false))
             || (row["Loan_Amount_Term"] == Str("inf") && num.parse("inf") == Some(Inf(false)))
    ensures RowToTextAsWritten(num, name, row) == Failure(OverflowError)
    ensures TermPhrase(num, row) == "unspecified term"
  {
  }
}

=== FILE: canonicaliser.dfy ===
/** `DataPreprocessor.row_to_text`: one loan record rendered as a fixed
    English template, with an explicit policy for every field that is
    missing, blank, a sentinel, or not convertible to a number. */
module Canonicaliser {
  import opened Wrappers
  import opened Text
  import opened Cells

  // ---------------------------------------------------------------- spellings

  /** A case-insensitive spelling of "yes". */
  predicate IsYesSpelling(t: string) {
    |t| == 3 && (t[0] == 'y' || t[0] == 'Y') && (t[1] == 'e' || t[1] == 'E') && (t[2] == 's' || t[2] == 'S')
  }

  /** `t.lower() == 'yes'` holds exactly for the case variants of "yes". */
  lemma LowerIsYes(t: string)
    ensures Lower(t) == "yes" <==> IsYesSpelling(t)
  {
    if Lower(t) == "yes" {
      assert LowerChar(t[0]) == 'y' && LowerChar(t[1]) == 'e' && LowerChar(t[2]) == 's';
    }
    if IsYesSpelling(t) {
      assert Lower(t) == [LowerChar(t[0]), LowerChar(t[1]), LowerChar(t[2])];
    }
  }

  /** `t.upper() == 'Y'` holds exactly for "y" and "Y". */
  lemma UpperIsY(t: string)
    ensures Upper(t) == "Y" <==> (t == "y" || t == "Y")
  {
    if Upper(t) == "Y" {
      assert UpperChar(t[0]) == 'Y';
    }
    if t == "y" || t == "Y" {
      assert Upper(t) == [UpperChar(t[0])];
    }
  }

  /** A value the categorical fields keep: present, not blank after
      stripping. */
  predicate IsKnown(num: Numerics, row: Row, key: string) {
    !IsNaAt(row, key) && StrippedAt(num, row, key) != ""
  }

  /** An absent column reads as "" and a missing cell, NaN included, as
      "nan". */
  lemma StrippedOfMissing(num: Numerics, row: Row, key: string)
    ensures key !in row ==> StrippedAt(num, row, key) == ""
    ensures key in row && IsNa(row[key]) ==> StrippedAt(num, row, key) == "nan"
  {
    if key !in row {
      StripNoOuterSpace("");
    } else if IsNa(row[key]) {
      StripNoOuterSpace("nan");
    }
  }

  // ---------------------------------------------------------------- categorical fields

  /** Gender, Education and Property_Area: the stripped value in lower
      case, or the field's unknown phrase. */
  function Categorical(num: Numerics, row: Row, key: string, unknown: string): string {
    var v := StrippedAt(num, row, key);
    if IsNaAt(row, key) || v == "" then unknown else Lower(v)
  }

  /** An explicit unknown phrase for a missing or blank value; otherwise a
      nonempty lower-case phrase, the stripped value with its case folded. */
  lemma CategoricalPolicy(num: Numerics, row: Row, key: string, unknown: string)
    ensures !IsKnown(num, row, key) ==> Categorical(num, row, key, unknown) == unknown
    ensures IsKnown(num, row, key) ==>
              var p := Categorical(num, row, key, unknown);
              p == Lower(StrippedAt(num, row, key)) && |p| > 0 && Lower(p) == p
  {
    LowerIdempotent(StrippedAt(num, row, key));
  }

  lemma LowerIdempotent(s: string)
    ensures Lower(Lower(s)) == Lower(s)
  {
    var l := Lower(s);
    forall i | 0 <= i < |s|
      ensures Lower(l)[i] == l[i]
    {
      assert LowerChar(LowerChar(s[i])) == LowerChar(s[i]);
    }
  }

  function GenderPhrase(num: Numerics, row: Row): string {
    Categorical(num, row, "Gender", "unknown gender")
  }

  function EducationPhrase(num: Numerics, row: Row): string {
    Categorical(num, row, "Education", "unknown education level")
  }

  function AreaPhrase(num: Numerics, row: Row): string {
    Categorical(num, row, "Property_Area", "unknown")
  }

  // ---------------------------------------------------------------- binary fields

  /** Married and Self_Employed: `yes` when the stripped value lowers to
      "yes", `no` otherwise. */
  function YesNo(num: Numerics, row: Row, key: string, yes: string, no: string): string {
    if Lower(StrippedAt(num, row, key)) == "yes" then yes else no
  }

  /** The affirmative phrase exactly for a case variant of "yes"
      (surrounding whitespace ignored); every other value, a missing one
      included, takes the negative phrase. */
  lemma YesNoPolicy(num: Numerics, row: Row, key: string, yes: string, no: string)
    requires yes != no
    ensures YesNo(num, row, key, yes, no) in {yes, no}
    ensures YesNo(num, row, key, yes, no) == yes <==> IsYesSpelling(StrippedAt(num, row, key))
    ensures IsNaAt(row, key) ==> YesNo(num, row, key, yes, no) == no
  {
    LowerIsYes(StrippedAt(num, row, key));
    StrippedOfMissing(num, row, key);
  }

  function MarriedPhrase(num: Numerics, row: Row): string {
    YesNo(num, row, "Married", "married", "not married")
  }

  function SelfEmployedPhrase(num: Numerics, row: Row): string {
    YesNo(num, row, "Self_Employed", "self-employed", "not self-employed")
  }

  /** Loan_Status: "approved" when the stripped value upper-cases to "Y". */
  function StatusPhrase(num: Numerics, row: Row): string {
    if Upper(StrippedAt(num, row, "Loan_Status")) == "Y" then "approved" else "denied"
  }

  /** "approved" exactly when the stripped status is "y" or "Y"; anything
      else, a missing status included, reads "denied". */
  lemma StatusPolicy(num: Numerics, row: Row)
    ensures StatusPhrase(num, row) in {"approved", "denied"}
    ensures StatusPhrase(num, row) == "approved" <==> StrippedAt(num, row, "Loan_Status") in {"y", "Y"}
    ensures IsNaAt(row, "Loan_Status") ==> StatusPhrase(num, row) == "denied"
  {
    UpperIsY(StrippedAt(num, row, "Loan_Status"));
    StrippedOfMissing(num, row, "Loan_Status");
  }

  // ---------------------------------------------------------------- dependents

  /** Dependents: unknown when missing or blank, the "3+" sentinel spelled
      out, every other stripped value passed through as it is. */
  function DependentsPhrase(num: Numerics, row: Row): string {
    var v := StrippedAt(num, row, "Dependents");
    if IsNaAt(row, "Dependents") || v == "" then "unknown number of"
    else if v == "3+" then "3 or more"
    else v
  }

  lemma DependentsPolicy(num: Numerics, row: Row)
    ensures !IsKnown(num, row, "Dependents") ==> DependentsPhrase(num, row) == "unknown number of"
    ensures IsKnown(num, row, "Dependents") && StrippedAt(num, row, "Dependents") == "3+" ==>
              DependentsPhrase(num, row) == "3 or more"
    ensures IsKnown(num, row, "Dependents") && StrippedAt(num, row, "Dependents") != "3+" ==>
              DependentsPhrase(num, row) == StrippedAt(num, row, "Dependents")
    ensures |DependentsPhrase(num, row)| > 0
  {
  }

  // ---------------------------------------------------------------- credit history

  /** Credit_History: unknown when missing or not convertible to a float,
      otherwise whether the value is numerically 1. */
  function CreditPhrase(num: Numerics, row: Row): string {
    if IsNaAt(row, "Credit_History") then "unknown credit history"
    else match ToFloat(num, row["Credit_History"])
      case None => "unknown credit history"
      case Some(f) => if f == Finite(1.0) then "has credit history" else "no credit history"
  }

  lemma CreditPolicy(num: Numerics, row: Row)
    ensures CreditPhrase(num, row) in {"unknown credit history", "has credit history", "no credit history"}
    ensures CreditPhrase(num, row) == "unknown credit history" <==>
              IsNaAt(row, "Credit_History") || ToFloat(num, row["Credit_History"]).None?
    ensures CreditPhrase(num, row) == "has credit history" <==>
              !IsNaAt(row, "Credit_History") && ToFloat(num, row["Credit_History"]) == Some(Finite(1.0))
  {
  }

  // ---------------------------------------------------------------- numeric fields

  /** A numeric field: `prefix + str(float(value)) + suffix`, or the fixed
      `unspecified` phrase. */
  function Amount(num: Numerics, row: Row, key: string, prefix: string, suffix: string, unspecified: string): string {
    if IsNaAt(row, key) then unspecified
    else match ToFloat(num, row[key])
      case None => unspecified
      case Some(f) => prefix + FloatStr(num, f) + suffix
  }

  function LoanAmountPhrase(num: Numerics, row: Row): string {
    Amount(num, row, "LoanAmount", "", " thousand", "an unspecified amount")
  }

  function IncomePhrase(num: Numerics, row: Row): string {
    Amount(num, row, "ApplicantIncome", "income of ", "", "unspecified income")
  }

  /** LoanAmount reads "an unspecified amount" exactly when the value is
      missing or not convertible; a rendered amount always ends in
      " thousand" and so can never be mistaken for it. */
  lemma LoanAmountPolicy(num: Numerics, row: Row)
    ensures LoanAmountPhrase(num, row) == "an unspecified amount" <==>
              IsNaAt(row, "LoanAmount") || ToFloat(num, row["LoanAmount"]).None?
    ensures !IsNaAt(row, "LoanAmount") && ToFloat(num, row["LoanAmount"]).Some? ==>
              LoanAmountPhrase(num, row) == FloatStr(num, ToFloat(num, row["LoanAmount"]).value) + " thousand"
  {
    if !IsNaAt(row, "LoanAmount") && ToFloat(num, row["LoanAmount"]).Some? {
      var p := LoanAmountPhrase(num, row);
      assert p[|p| - 1] == 'd';
    }
  }

  /** ApplicantIncome reads "unspecified income" exactly when the value is
      missing or not convertible; a rendered income always starts with
      "income of ". */
  lemma IncomePolicy(num: Numerics, row: Row)
    ensures IncomePhrase(num, row) == "unspecified income" <==>
              IsNaAt(row, "ApplicantIncome") || ToFloat(num, row["ApplicantIncome"]).None?
    ensures !IsNaAt(row, "ApplicantIncome") && ToFloat(num, row["ApplicantIncome"]).Some? ==>
              IncomePhrase(num, row) == "income of " + FloatStr(num, ToFloat(num, row["ApplicantIncome"]).value)
  {
    if !IsNaAt(row, "ApplicantIncome") && ToFloat(num, row["ApplicantIncome"]).Some? {
      assert IncomePhrase(num, row)[0] == 'i';
    }
  }

  /** CoapplicantIncome: a missing value and a numeric zero read "no
      co-applicant income", an unconvertible one "unspecified co-applicant
      income", any other the float rendering. */
  function CoapplicantPhrase(num: Numerics, row: Row): string {
    var key := "CoapplicantIncome";
    if IsNaAt(row, key) || EqualsZero(row[key]) then "no co-applicant income"
    else match ToFloat(num, row[key])
      case None => "unspecified co-applicant income"
      case Some(f) => "co-applicant income of " + FloatStr(num, f)
  }

  /** The three wordings are told apart exactly by their conditions. A zero
      written as text is not equal to 0 in Python and so is rendered as an
      amount. */
  lemma CoapplicantPolicy(num: Numerics, row: Row)
    ensures CoapplicantPhrase(num, row) == "no co-applicant income" <==>
              IsNaAt(row, "CoapplicantIncome") || EqualsZero(row["CoapplicantIncome"])
    ensures CoapplicantPhrase(num, row) == "unspecified co-applicant income" <==>
              !IsNaAt(row, "CoapplicantIncome") && !EqualsZero(row["CoapplicantIncome"])
              && ToFloat(num, row["CoapplicantIncome"]).None?
    ensures !IsNaAt(row, "CoapplicantIncome") && !EqualsZero(row["CoapplicantIncome"])
              && ToFloat(num, row["CoapplicantIncome"]).Some? ==>
              CoapplicantPhrase(num, row) == "co-applicant income of " + FloatStr(num, ToFloat(num, row["CoapplicantIncome"]).value)
  {
    var p := CoapplicantPhrase(num, row);
    if !IsNaAt(row, "CoapplicantIncome") && !EqualsZero(row["CoapplicantIncome"])
       && ToFloat(num, row["CoapplicantIncome"]).Some? {
      assert p[0] == 'c';
    }
  }

  // ---------------------------------------------------------------- loan term

  /** The error `row_to_text` can raise. */
  datatype Raised = OverflowError

  /** Loan_Amount_Term as written: a finite value (negative zero
      included) truncated to whole months; missing, unconvertible and NaN values read "unspecified
      term"; an infinite value makes `int()` raise OverflowError, which the
      guard does not catch. */
  function TermPhraseAsWritten(num: Numerics, row: Row): (r: Result<string, Raised>)
    ensures r.Failure? <==>
              !IsNaAt(row, "Loan_Amount_Term") && ToFloat(num, row["Loan_Amount_Term"]).Some?
              && ToFloat(num, row["Loan_Amount_Term"]).value.Inf?
  {
    if IsNaAt(row, "Loan_Amount_Term") then Success("unspecified term")
    else match ToFloat(num, row["Loan_Amount_Term"])
      case None => Success("unspecified term")
      case Some(NaN) => Success("unspecified term")
      case Some(Inf(_)) => Failure(OverflowError)
      case Some(f) => Success(IntToString(Trunc(f.Value())) + " months term")
  }

  /** Loan_Amount_Term with the conversion guard covering infinities too. */
  function TermPhrase(num: Numerics, row: Row): string {
    if IsNaAt(row, "Loan_Amount_Term") then "unspecified term"
    else match ToFloat(num, row["Loan_Amount_Term"])
      case None => "unspecified term"
      case Some(NaN) => "unspecified term"
      case Some(Inf(_)) => "unspecified term"
      case Some(f) => IntToString(Trunc(f.Value())) + " months term"
  }

  /** The corrected term agrees with `row_to_text` as written wherever it
      does not raise; every value that is not a finite number reads
      "unspecified term", and a finite one is the whole number of months it
      truncates to toward zero: `m <= x < m + 1` for a non-negative `x`,
      `n - 1 < x <= n` for a negative one. */
  lemma TermPolicy(num: Numerics, row: Row)
    ensures TermPhraseAsWritten(num, row).Success? ==> TermPhrase(num, row) == TermPhraseAsWritten(num, row).value
    ensures TermPhrase(num, row) == "unspecified term" <==>
              IsNaAt(row, "Loan_Amount_Term") || ToFloat(num, row["Loan_Amount_Term"]).None?
              || !ToFloat(num, row["Loan_Amount_Term"]).value.IsFinite()
    ensures !IsNaAt(row, "Loan_Amount_Term") && ToFloat(num, row["Loan_Amount_Term"]).Some?
              && ToFloat(num, row["Loan_Amount_Term"]).value.IsFinite() && ToFloat(num, row["Loan_Amount_Term"]).value.Value() >= 0.0 ==>
              exists m: nat :: TermPhrase(num, row) == NatToString(m) + " months term"
                               && m as real <= ToFloat(num, row["Loan_Amount_Term"]).value.Value() < m as real + 1.0
    ensures !IsNaAt(row, "Loan_Amount_Term") && ToFloat(num, row["Loan_Amount_Term"]).Some?
              && ToFloat(num, row["Loan_Amount_Term"]).value.IsFinite() && ToFloat(num, row["Loan_Amount_Term"]).value.Value() < 0.0 ==>
              exists n: int :: n <= 0 && TermPhrase(num, row) == IntToString(n) + " months term"
                               && n as real - 1.0 < ToFloat(num, row["Loan_Amount_Term"]).value.Value() <= n as real
  {
    if !IsNaAt(row, "Loan_Amount_Term") && ToFloat(num, row["Loan_Amount_Term"]).Some?
       && ToFloat(num, row["Loan_Amount_Term"]).value.IsFinite() {
      var x := ToFloat(num, row["Loan_Amount_Term"]).value.Value();
      var p := IntToString(Trunc(x)) + " months term";
      assert TermPhrase(num, row) == p;
      assert p != "unspecified term" by {
        assert p[|p| - 12..] == " months term";
        assert "unspecified term"[4..] == "ecified term";
      }
      WholeMonths(x);
    }
  }

  /** A non-negative term renders as the whole number of months below it;
      a negative one as the whole number above it, since `int()` truncates
      toward zero. */
  lemma WholeMonths(x: real)
    ensures x >= 0.0 ==> exists m: nat :: IntToString(Trunc(x)) + " months term" == NatToString(m) + " months term"
                                          && m as real <= x < m as real + 1.0
    ensures x < 0.0 ==> exists n: int :: n <= 0 && IntToString(Trunc(x)) + " months term" == IntToString(n) + " months term"
                                         && n as real - 1.0 < x <= n as real
  {
    if x >= 0.0 {
      var m: nat := Trunc(x);
      assert IntToString(Trunc(x)) == NatToString(m);
    } else {
      var n := Trunc(x);
      assert n <= 0 && n as real - 1.0 < x <= n as real;
      assert IntToString(Trunc(x)) + " months term" == IntToString(n) + " months term";
    }
  }

  /** Negative zero keeps its sign in every field that prints the float,
      and is zero everywhere the value is compared or truncated: an amount
      of -0.0 reads "-0.0 thousand", an income "income of -0.0", while a
      co-applicant income of -0.0 equals 0 and a term of -0.0 is zero
      months. */
  lemma NegativeZeroWording(num: Numerics, row: Row)
    ensures "LoanAmount" in row && row["LoanAmount"] == Float(NegZero) ==>
              LoanAmountPhrase(num, row) == "-0.0 thousand"
    ensures "ApplicantIncome" in row && row["ApplicantIncome"] == Float(NegZero) ==>
              IncomePhrase(num, row) == "income of -0.0"
    ensures "CoapplicantIncome" in row && row["CoapplicantIncome"] == Float(NegZero) ==>
              CoapplicantPhrase(num, row) == "no co-applicant income"
    ensures "Loan_Amount_Term" in row && row["Loan_Amount_Term"] == Float(NegZero) ==>
              TermPhraseAsWritten(num, row) == Success("0 months term") && TermPhrase(num, row) == "0 months term"
  {
    if "Loan_Amount_Term" in row && row["Loan_Amount_Term"] == Float(NegZero) {
      assert NegZero.Value() == 0.0 && Trunc(0.0) == 0;
      assert NatToString(0) == [DigitChar(0)] == "0";
      assert IntToString(Trunc(NegZero.Value())) + " months term" == "0 months term";
    }
  }

  // ---------------------------------------------------------------- loan id

  /** Loan_ID: the stripped value, or "Unknown_" and the row's label when
      the dataset has no such column. */
  function LoanIdPhrase(num: Numerics, name: nat, row: Row): string {
    Strip(if "Loan_ID" in row then PyStr(num, row["Loan_ID"]) else "Unknown_" + IntToString(name))
  }

  lemma LoanIdPolicy(num: Numerics, name: nat, row: Row)
    ensures "Loan_ID" in row ==> LoanIdPhrase(num, name, row) == StrippedAt(num, row, "Loan_ID")
    ensures "Loan_ID" !in row ==> LoanIdPhrase(num, name, row) == "Unknown_" + NatToString(name)
  {
    UnknownIdIsStripped(name);
  }

  lemma UnknownIdIsStripped(name: nat)
    ensures Strip("Unknown_" + IntToString(name)) == "Unknown_" + NatToString(name)
  {
    var s := "Unknown_" + NatToString(name);
    assert s[0] == 'U' && !IsSpace(s[|s| - 1]);
    StripNoOuterSpace(s);
  }

  // ---------------------------------------------------------------- template

  /** The thirteen rendered fragments of one record, in template order. */
  datatype Phrases = Phrases(
    loanId: string, married: string, gender: string, education: string,
    selfEmployed: string, dependents: string, credit: string, amount: string,
    income: string, coapplicant: string, term: string, area: string, status: string)

  /** The fragments of a record, given the rendering of its loan term. */
  function PhrasesWith(num: Numerics, name: nat, row: Row, term: string): Phrases {
    Phrases(
      LoanIdPhrase(num, name, row), MarriedPhrase(num, row), GenderPhrase(num, row),
      EducationPhrase(num, row), SelfEmployedPhrase(num, row), DependentsPhrase(num, row),
      CreditPhrase(num, row), LoanAmountPhrase(num, row), IncomePhrase(num, row),
      CoapplicantPhrase(num, row), term, AreaPhrase(num, row), StatusPhrase(num, row))
  }

  function RowPhrases(num: Numerics, name: nat, row: Row): Phrases {
    PhrasesWith(num, name, row, TermPhrase(num, row))
  }

  /** The sentence template: separators and fragments alternate, the
      fixed order of the record's description. */
  function Describe(p: Phrases): string {
    Interleave(Template, Fragments(p))
  }

  /** The canonical text of the row labelled `name`. Total: no cell value
      makes it fail. It opens with the applicant's id and closes with the
      outcome sentence. */
  function RowToText(num: Numerics, name: nat, row: Row): (t: string)
    ensures StartsWith(t, "Applicant " + LoanIdPhrase(num, name, row) + " is a ")
    ensures EndsWith(t, " area. The loan was " + StatusPhrase(num, row) + ".")
  {
    DescribeOpensAndCloses(RowPhrases(num, name, row));
    Describe(RowPhrases(num, name, row))
  }

  /** Any filled template opens with the id sentence and closes with the
      outcome sentence. */
  lemma DescribeOpensAndCloses(p: Phrases)
    ensures StartsWith(Describe(p), "Applicant " + p.loanId + " is a ")
    ensures EndsWith(Describe(p), " area. The loan was " + p.status + ".")
  {
    var f := Fragments(p);
    InterleaveStarts(Template, f);
    InterleaveEnds(Template, f);
    assert Template[|Template| - 2] + f[|f| - 1] + Template[|Template| - 1] == " area. The loan was " + p.status + ".";
  }


  /** `row_to_text` exactly as written: it raises for an infinite loan term
      and otherwise agrees with `RowToText`. */
  function RowToTextAsWritten(num: Numerics, name: nat, row: Row): (r: Result<string, Raised>)
    ensures r.Failure? <==> TermPhraseAsWritten(num, row).Failure?
    ensures r.Success? ==> r.value == RowToText(num, name, row)
  {
    TermPolicy(num, row);
    match TermPhraseAsWritten(num, row)
    case Failure(e) => Failure(e)
    case Success(term) => Success(Describe(PhrasesWith(num, name, row, term)))
  }

  /** The fixed separators of the template, the first before the loan id
      and the last after the status. */
  const Template: seq<string> := [
    "Applicant ", " is a ", " ", " ", " who is ", " with ", " dependents and ",
    ". They applied for a loan of ", " with ", " and ", " for ", " in a ",
    " area. The loan was ", "."]

  function Fragments(p: Phrases): seq<string> {
    [p.loanId, p.married, p.gender, p.education, p.selfEmployed, p.dependents, p.credit,
     p.amount, p.income, p.coapplicant, p.term, p.area, p.status]
  }
}

=== FILE: cells.dfy ===
/** The values a loaded dataset row holds, and the two Python conversions
    the canonicaliser applies to them: `str(value)` and `float(value)`. */
module Cells {
  import opened Wrappers
  import opened Text

  /** A Python float: a finite value other than negative zero, negative
      zero (which equals zero yet prints with its sign), an infinity, or
      NaN. */
  datatype PyFloat = Finite(r: real) | NegZero | Inf(negative: bool) | NaN
  {
    /** The float is a finite number: zero of either sign included. */
    predicate IsFinite() {
      Finite? || NegZero?
    }

    /** The number a finite float stands for. */
    function Value(): real
      requires IsFinite()
    {
      if NegZero? then 0.0 else r
    }
  }

  /** One cell of a dataframe row as `pd.read_csv` leaves it: missing
      (one of the configured missing-value tokens in an object column), a
      string of an object column, an integer of an int64 column, or a float
      of a float64 column (where a missing value is the float NaN). */
  datatype Cell = Missing | Str(s: string) | Int(i: int) | Float(f: PyFloat)

  /** A row: column name to cell. A column the dataset lacks is absent.
      This is a row of the dataframe as read; the Series `iterrows` hands
      to `row_to_text` can hold its integers as floats (see
      `IndexStore.IterRows`). */
  type Row = map<string, Cell>

  /** The parts of Python's float handling that depend on its exact
      decimal algorithms: `float(text)` (`None` when it raises ValueError)
      and `str(x)` of a finite float. Every property of the model holds for
      any choice. */
  datatype Numerics = Numerics(parse: string -> Option<PyFloat>, repr: real -> string)

  /** `pd.isna(value)`. */
  predicate IsNa(c: Cell) {
    c.Missing? || (c.Float? && c.f.NaN?)
  }

  /** `pd.isna(row.get(key))`: an absent column reads as `None`, which is
      missing too. */
  predicate IsNaAt(row: Row, key: string) {
    key !in row || IsNa(row[key])
  }

  /** Python `str(x)` of a float: NaN, the infinities and negative zero
      have fixed spellings; any other finite value is rendered by
      `num.repr`. */
  function FloatStr(num: Numerics, f: PyFloat): string {
    match f
    case NaN => "nan"
    case Inf(negative) => if negative then "-inf" else "inf"
    case NegZero => "-0.0"
    case Finite(x) => num.repr(x)
  }

  /** A cell as it reaches a row whose Series is float64: an integer
      becomes the float it converts to, any other cell stays. */
  function AsFloat(c: Cell): Cell {
    if c.Int? then Float(Finite(IntToFloat(c.i) as real)) else c
  }

  /** A row with every cell as `AsFloat` leaves it. */
  function UpcastRow(row: Row): Row {
    map key | key in row :: AsFloat(row[key])
  }

  /** Python `str(value)`. */
  function PyStr(num: Numerics, c: Cell): (s: string)
    ensures IsNa(c) ==> s == "nan"
  {
    match c
    case Missing => "nan"
    case Str(s) => s
    case Int(i) => IntToString(i)
    case Float(f) => FloatStr(num, f)
  }

  // ---------------------------------------------------------------- int to float

  /** 2 to the power `e`. */
  function Pow2(e: nat): (p: nat)
    ensures p >= 1
  {
    if e == 0 then 1 else 2 * Pow2(e - 1)
  }

  /** The number of binary digits of `n`. */
  function BitLength(n: nat): nat {
    if n == 0 then 0 else 1 + BitLength(n / 2)
  }

  /** The significand width of an IEEE 754 double. */
  const Significand: nat := 53

  /** A natural number rounded to the nearest double, ties to even: kept as
      it is when it has at most 53 binary digits, otherwise rounded to a
      multiple of the unit of its 53rd digit. */
  function RoundToDouble(n: nat): nat {
    var len := BitLength(n);
    if len <= Significand then n else RoundTo(n, Pow2(len - Significand))
  }

  /** `n` rounded to a multiple of `unit`, ties to the even multiple. */
  function RoundTo(n: nat, unit: nat): nat
    requires unit > 0
  {
    var q := n / unit;
    var rem := n % unit;
    if 2 * rem > unit || (2 * rem == unit && q % 2 == 1) then q * unit + unit else q * unit
  }

  /** `n` rounded to `unit` is a multiple of `unit` within half a unit of
      `n`. */
  lemma RoundToNearest(n: nat, unit: nat)
    requires unit > 0
    ensures 2 * (RoundTo(n, unit) - n) <= unit && 2 * (n - RoundTo(n, unit)) <= unit
    ensures exists m: nat :: RoundTo(n, unit) == m * unit
  {
    var q := n / unit;
    assert q * unit + n % unit == n;
    if RoundTo(n, unit) == q * unit + unit {
      assert RoundTo(n, unit) == (q + 1) * unit;
    } else {
      assert RoundTo(n, unit) == q * unit;
    }
  }

  /** The distance between two integers. */
  function Dist(a: int, b: int): nat {
    if a <= b then b - a else a - b
  }

  /** No multiple of `unit` lies closer to `n` than `n` rounded to `unit`. */
  lemma RoundToBest(n: nat, unit: nat, m: nat)
    requires unit > 0
    ensures Dist(RoundTo(n, unit), n) <= Dist(m * unit, n)
  {
    var q := n / unit;
    RoundToBracket(n, unit);
    if m <= q {
      MulMono(m, q, unit);
    } else {
      MulMono(q + 1, m, unit);
      assert (q + 1) * unit == q * unit + unit;
    }
  }

  /** `n` lies between the multiples of `unit` below and above it, and its
      rounding is no farther from it than either. */
  lemma RoundToBracket(n: nat, unit: nat)
    requires unit > 0
    ensures var lo := (n / unit) * unit;
            lo <= n < lo + unit && Dist(RoundTo(n, unit), n) <= n - lo && Dist(RoundTo(n, unit), n) <= lo + unit - n
  {
    var q := n / unit;
    assert q * unit + n % unit == n;
  }

  lemma MulMono(a: nat, b: nat, c: nat)
    requires a <= b
    ensures a * c <= b * c
  {
  }

  /** Python `float(i)` of an int64 value, as the integer the double holds. */
  function IntToFloat(i: int): int {
    if i >= 0 then RoundToDouble(i) else -(RoundToDouble(-i) as int)
  }

  lemma {:induction false} BitLengthBound(n: nat, k: nat)
    requires n < Pow2(k)
    ensures BitLength(n) <= k
  {
    if n > 0 {
      BitLengthBound(n / 2, k - 1);
    }
  }

  /** Integers below 2^53 in magnitude convert exactly. */
  lemma IntToFloatExact(i: int)
    requires -(Pow2(Significand) as int) < i < Pow2(Significand)
    ensures IntToFloat(i) == i
  {
    BitLengthBound(if i >= 0 then i else -i, Significand);
  }

  /** Beyond 2^53 the conversion lands on a multiple of the unit of the
      53rd binary digit of the integer, within half that unit; an integer
      that is no such multiple therefore changes. */
  lemma RoundToDoubleNearest(n: nat)
    requires BitLength(n) > Significand
    ensures 2 * (RoundToDouble(n) - n) <= Pow2(BitLength(n) - Significand)
    ensures 2 * (n - RoundToDouble(n)) <= Pow2(BitLength(n) - Significand)
    ensures var unit := Pow2(BitLength(n) - Significand); exists m: nat :: RoundToDouble(n) == m * unit
  {
    RoundToNearest(n, Pow2(BitLength(n) - Significand));
  }

  /** Beyond 2^53 no multiple of the unit of the 53rd binary digit lies
      closer to the integer than its conversion does. */
  lemma RoundToDoubleBest(n: nat, m: nat)
    requires BitLength(n) > Significand
    ensures Dist(RoundToDouble(n), n) <= Dist(m * Pow2(BitLength(n) - Significand), n)
  {
    RoundToBest(n, Pow2(BitLength(n) - Significand), m);
  }

  /** Python `float(value)`; `None` is the ValueError of a string that does
      not parse. An int64 integer rounds to the nearest double. */
  function ToFloat(num: Numerics, c: Cell): (r: Option<PyFloat>)
    ensures !c.Str? ==> r.Some?
    ensures c.Float? ==> r == Some(c.f)
    ensures c.Int? ==> r == Some(Finite(IntToFloat(c.i) as real))
  {
    match c
    case Missing => Some(NaN)
    case Str(s) => num.parse(s)
    case Int(i) => Some(Finite(IntToFloat(i) as real))
    case Float(f) => Some(f)
  }

  /** Python `value == 0` on a raw cell: only numbers can equal zero; a
      string such as "0" never does. */
  predicate EqualsZero(c: Cell) {
    (c.Int? && c.i == 0) || (c.Float? && (c.f == Finite(0.0) || c.f == NegZero))
  }

  /** `str(row.get(key, '')).strip()`. */
  function StrippedAt(num: Numerics, row: Row, key: string): string {
    Strip(if key in row then PyStr(num, row[key]) else "")
  }

  /** Python `int(x)` on a finite float: truncation toward zero. */
  function Trunc(r: real): (n: int)
    ensures r >= 0.0 ==> 0 <= n && n as real <= r < n as real + 1.0
    ensures r < 0.0 ==> n <= 0 && n as real - 1.0 < r <= n as real
  {
    if r >= 0.0 then r.Floor else -((-r).Floor)
  }
}

=== FILE: index_store.dfy ===
/** `DataPreprocessor.preprocess_data` and `load_preprocessed_data`: the
    persisted index and its metadata, the decision whether they still match
    the dataset, the rebuild that renders one text per row, and the load. */
module IndexStore {
  import opened Wrappers
  import opened Cells
  import opened Canonicaliser

  /** A loaded dataset: its column names in order and its rows. Rows are
      labelled by position, as `pd.read_csv` numbers them. */
  datatype Frame = Frame(columns: seq<string>, rows: seq<Row>)

  /** A flat inner-product index. The embedding is outside the model, so an
      index is known by the texts whose normalised embeddings it holds, in
      insertion order; its size is their number. */
  datatype VectorIndex = VectorIndex(embedded: seq<string>)

  /** The index file on disk. */
  datatype IndexFile = NoIndex | BadIndex | SavedIndex(index: VectorIndex)

  /** One key of the pickled metadata dictionary. */
  datatype Key<T> = KeyMissing | KeyHolds(v: T)

  /** The metadata file on disk: absent, not loadable as a dictionary, or a
      dictionary with (perhaps) its 'texts' and 'dataframe' entries. */
  datatype MetaFile = NoMeta | BadMeta | SavedMeta(texts: Key<seq<string>>, dataframe: Key<Option<Frame>>)

  datatype Store = Store(index: IndexFile, meta: MetaFile)

  /** The dataset file as `download_dataset` finds it. */
  datatype CsvFile = NoCsv | BadCsv | Csv(df: Frame)

  /** How writing one file goes. Both `faiss.write_index` and
      `open(..., 'wb')` open the file for writing first, which truncates
      it: a write that fails after opening leaves the file unreadable, one
      that cannot open it leaves it as it was. */
  datatype Write = Written | OpenFailed | WriteFailed

  /** Everything `preprocess_data` depends on besides the code: whether
      the index directory can be made, the dataset file, the files already
      persisted, and whether embedding and each write succeed. */
  datatype Env = Env(
    dirOk: bool, csv: CsvFile, store: Store,
    encodeOk: bool, indexWrite: Write, metaWrite: Write)

  /** What `preprocess_data` returns, and the files it leaves behind. */
  datatype Outcome = Outcome(ok: bool, store: Store)

  datatype Decision = Reuse | Rebuild

  // ---------------------------------------------------------------- texts

  /** Every cell of the frame is a number and at least one is a float: its
      columns are all int64 or float64, with a float64 among them. */
  predicate Upcasts(df: Frame) {
    (forall i, key :: 0 <= i < |df.rows| && key in df.rows[i] ==> df.rows[i][key].Int? || df.rows[i][key].Float?)
    && (exists i, key :: 0 <= i < |df.rows| && key in df.rows[i] && df.rows[i][key].Float?)
  }

  /** The rows `df.iterrows()` yields. Each is built from `df.values`,
      whose dtype is common to all columns: object as soon as one column
      holds strings, and float64 when the columns mix int64 and float64, in
      which case every integer arrives as the float it converts to. */
  function IterRows(df: Frame): (rows: seq<Row>)
    ensures |rows| == |df.rows|
  {
    if Upcasts(df) then seq(|df.rows|, i requires 0 <= i < |df.rows| => UpcastRow(df.rows[i])) else df.rows
  }

  /** Iteration keeps every row's columns. A frame holding a string or a
      missing-value token yields its rows unchanged; a frame of mixed ints
      and floats yields rows with no integer left, each integer replaced by
      its float conversion, so `str()` renders it as a float. */
  lemma IterRowsCells(num: Numerics, df: Frame, i: nat, key: string)
    requires i < |df.rows| && key in df.rows[i]
    ensures key in IterRows(df)[i]
    ensures (exists j, k :: 0 <= j < |df.rows| && k in df.rows[j] && (df.rows[j][k].Str? || df.rows[j][k].Missing?))
              ==> IterRows(df) == df.rows
    ensures Upcasts(df) ==> !IterRows(df)[i][key].Int?
    ensures Upcasts(df) && df.rows[i][key].Int? ==>
              PyStr(num, IterRows(df)[i][key]) == FloatStr(num, Finite(IntToFloat(df.rows[i][key].i) as real))
    ensures !df.rows[i][key].Int? ==> IterRows(df)[i][key] == df.rows[i][key]
  {
  }

  /** `row_to_text` does not raise on `row`, whatever its label: only an
      infinite loan term makes it raise. */
  predicate Renders(num: Numerics, row: Row) {
    TermPhraseAsWritten(num, row).Success?
  }

  /** Every row of the dataset renders. */
  predicate AllRender(num: Numerics, rows: seq<Row>) {
    forall i :: 0 <= i < |rows| ==> Renders(num, rows[i])
  }

  /** The canonical texts of `rows`, one per row in row order. Where every
      row renders, these are the texts `row_to_text` returns. */
  function Texts(num: Numerics, rows: seq<Row>): (ts: seq<string>)
    ensures |ts| == |rows|
  {
    if rows == [] then []
    else Texts(num, rows[..|rows| - 1]) + [RowToText(num, |rows| - 1, rows[|rows| - 1])]
  }

  /** Text `i` is row `i` rendered under its label `i`. */
  lemma {:induction false} TextsAligned(num: Numerics, rows: seq<Row>, i: nat)
    requires i < |rows|
    ensures Texts(num, rows)[i] == RowToText(num, i, rows[i])
  {
    if i < |rows| - 1 {
      var front := rows[..|rows| - 1];
      TextsAligned(num, front, i);
      assert front[i] == rows[i];
    }
  }

  lemma TextsSnoc(num: Numerics, rows: seq<Row>, i: nat)
    requires i < |rows|
    ensures Texts(num, rows[..i + 1]) == Texts(num, rows[..i]) + [RowToText(num, i, rows[i])]
  {
    var done := rows[..i + 1];
    assert done[..i] == rows[..i] && done[i] == rows[i];
  }

  lemma AllRenderSnoc(num: Numerics, rows: seq<Row>, i: nat)
    requires i < |rows| && AllRender(num, rows[..i]) && Renders(num, rows[i])
    ensures AllRender(num, rows[..i + 1])
  {
    forall j | 0 <= j < i + 1
      ensures Renders(num, rows[j])
    {
      if j < i {
        assert rows[..i][j] == rows[j];
      }
    }
  }

  /** One row that raises is enough to stop the whole rebuild. */
  lemma RaisingRow(num: Numerics, rows: seq<Row>, i: nat)
    requires i < |rows| && !Renders(num, rows[i])
    ensures !AllRender(num, rows)
  {
  }

  /** One call `self.row_to_text(row)` for the row labelled `name`. */
  method RenderRow(num: Numerics, name: nat, row: Row) returns (t: Result<string, Raised>)
    ensures t.Success? <==> Renders(num, row)
    ensures t.Success? ==> t.value == RowToText(num, name, row)
  {
    t := RowToTextAsWritten(num, name, row);
  }

  /** The rebuild: `texts.append(self.row_to_text(row))` for each row
      `df.iterrows()` yields, where the first row on which `row_to_text`
      raises ends the loop with its exception. */
  method BuildTexts(num: Numerics, df: Frame) returns (r: Result<seq<string>, Raised>)
    ensures r.Success? <==> AllRender(num, IterRows(df))
    ensures r.Success? ==> r.value == Texts(num, IterRows(df)) && |r.value| == |df.rows|
  {
    r := RenderRows(num, IterRows(df));
  }

  /** The loop over the rows in order, labelled by position. */
  method RenderRows(num: Numerics, rows: seq<Row>) returns (r: Result<seq<string>, Raised>)
    ensures r.Success? <==> AllRender(num, rows)
    ensures r.Success? ==> r.value == Texts(num, rows)
  {
    var texts := [];
    var i := 0;
    while i < |rows|
      invariant 0 <= i <= |rows|
      invariant texts == Texts(num, rows[..i])
      invariant AllRender(num, rows[..i])
    {
      var t := RenderRow(num, i, rows[i]);
      if t.Failure? {
        RaisingRow(num, rows, i);
        return Failure(t.error);
      }
      TextsSnoc(num, rows, i);
      AllRenderSnoc(num, rows, i);
      texts := texts + [t.value];
      i := i + 1;
    }
    assert rows[..i] == rows;
    return Success(texts);
  }

  // ---------------------------------------------------------------- freshness

  predicate IndexExists(f: IndexFile) {
    !f.NoIndex?
  }

  predicate MetaExists(f: MetaFile) {
    !f.NoMeta?
  }

  /** The persisted files can be reused for `df`: both exist, the
      metadata loads, and the dataframe stored in it equals `df`. */
  predicate IsCurrent(store: Store, df: Frame) {
    IndexExists(store.index) && store.meta.SavedMeta? && store.meta.dataframe == KeyHolds(Some(df))
  }

  /** `metadata.get('dataframe')`. */
  function StoredFrame(meta: MetaFile): Option<Frame>
    requires meta.SavedMeta?
  {
    if meta.dataframe.KeyHolds? then meta.dataframe.v else None
  }

  /** The reuse test of `preprocess_data`. The row-count comparison is a
      cheap pre-check that equality makes redundant: the decision is Reuse
      exactly when the files are current. */
  function Freshness(store: Store, df: Frame): (d: Decision)
    ensures d == Reuse <==> IsCurrent(store, df)
  {
    if IndexExists(store.index) && MetaExists(store.meta) then
      match store.meta
      case BadMeta => Rebuild
      case SavedMeta(_, _) =>
        var stored := StoredFrame(store.meta);
        if stored.None? || |stored.value.rows| != |df.rows| || stored.value != df then Rebuild else Reuse
    else Rebuild
  }

  // ---------------------------------------------------------------- preprocess

  /** The files a complete rebuild for `df` leaves: an index over the
      row texts and metadata holding the same texts and the dataframe. */
  predicate Aligned(num: Numerics, store: Store, df: Frame) {
    var texts := Texts(num, IterRows(df));
    store.index == SavedIndex(VectorIndex(texts))
    && store.meta == SavedMeta(KeyHolds(texts), KeyHolds(Some(df)))
  }

  /** Render, embed, index and persist the row texts of `df`. A row that
      makes `row_to_text` raise, or a failed embedding, stops the rebuild
      before any file is touched; a failed write leaves what the write
      reached. */
  function Regenerate(num: Numerics, env: Env, df: Frame): (r: Outcome)
    ensures r.ok <==> AllRender(num, IterRows(df)) && env.encodeOk && env.indexWrite == Written && env.metaWrite == Written
    ensures r.ok ==> Aligned(num, r.store, df)
    ensures !AllRender(num, IterRows(df)) || !env.encodeOk || env.indexWrite == OpenFailed ==> r == Outcome(false, env.store)
    ensures r.ok || r.store.meta == env.store.meta || r.store.meta == BadMeta
  {
    if !AllRender(num, IterRows(df)) || !env.encodeOk then Outcome(false, env.store)
    else
      var texts := Texts(num, IterRows(df));
      match env.indexWrite
      case OpenFailed => Outcome(false, env.store)
      case WriteFailed => Outcome(false, env.store.(index := BadIndex))
      case Written =>
        var written := env.store.(index := SavedIndex(VectorIndex(texts)));
        match env.metaWrite
        case OpenFailed => Outcome(false, written)
        case WriteFailed => Outcome(false, written.(meta := BadMeta))
        case Written => Outcome(true, written.(meta := SavedMeta(KeyHolds(texts), KeyHolds(Some(df)))))
  }

  /** `preprocess_data`: returns false on any failure instead of raising.
      With a readable dataset it reuses the files untouched when they are
      current, and otherwise rebuilds them. */
  function PreprocessData(num: Numerics, env: Env): (r: Outcome)
    ensures !env.dirOk || !env.csv.Csv? ==> r == Outcome(false, env.store)
    ensures env.dirOk && env.csv.Csv? && IsCurrent(env.store, env.csv.df) ==> r == Outcome(true, env.store)
    ensures env.dirOk && env.csv.Csv? && !IsCurrent(env.store, env.csv.df) ==>
              (r.ok <==> AllRender(num, IterRows(env.csv.df)) && env.encodeOk
                         && env.indexWrite == Written && env.metaWrite == Written)
    ensures env.dirOk && env.csv.Csv? && !IsCurrent(env.store, env.csv.df) && !AllRender(num, IterRows(env.csv.df)) ==>
              r == Outcome(false, env.store)
    ensures r.ok ==> env.csv.Csv? && (r.store == env.store || Aligned(num, r.store, env.csv.df))
  {
    if !env.dirOk then Outcome(false, env.store)
    else match env.csv
      case NoCsv => Outcome(false, env.store)
      case BadCsv => Outcome(false, env.store)
      case Csv(df) =>
        if Freshness(env.store, df) == Reuse then Outcome(true, env.store)
        else Regenerate(num, env, df)
  }

  /** After a successful run the files are current, so running again on the
      same dataset reuses them without embedding anything. */
  lemma PreprocessIdempotent(num: Numerics, env: Env)
    requires PreprocessData(num, env).ok
    ensures IsCurrent(PreprocessData(num, env).store, env.csv.df)
    ensures PreprocessData(num, env.(store := PreprocessData(num, env).store))
            == Outcome(true, PreprocessData(num, env).store)
  {
  }

  /** A dataset that differs from the stored one, in any cell, row or
      column name, is re-embedded. */
  lemma ChangedDatasetRebuilds(store: Store, df: Frame, stored: Frame)
    requires store.meta.SavedMeta? && store.meta.dataframe == KeyHolds(Some(stored))
    requires stored != df
    ensures Freshness(store, df) == Rebuild
  {
  }

  // ---------------------------------------------------------------- load

  /** Why `load_preprocessed_data` raises: FileNotFoundError when either
      file is absent; otherwise an error reading the index, unpickling the
      metadata, or a missing key. */
  datatype LoadError = NotFound | IndexReadError | MetaReadError | MissingKey

  /** The triple `load_preprocessed_data` returns. */
  datatype Loaded = Loaded(index: VectorIndex, texts: seq<string>, dataframe: Option<Frame>)

  /** `load_preprocessed_data`: not-found exactly when a file is absent;
      on success, all three parts come from the files as stored. */
  function LoadPreprocessedData(store: Store): (r: Result<Loaded, LoadError>)
    ensures r == Failure(NotFound) <==> !IndexExists(store.index) || !MetaExists(store.meta)
    ensures r.Success? <==> store.index.SavedIndex? && store.meta.SavedMeta?
                            && store.meta.texts.KeyHolds? && store.meta.dataframe.KeyHolds?
    ensures r.Success? ==> store.index == SavedIndex(r.value.index)
                           && store.meta == SavedMeta(KeyHolds(r.value.texts), KeyHolds(r.value.dataframe))
  {
    if !IndexExists(store.index) || !MetaExists(store.meta) then Failure(NotFound)
    else if store.index.BadIndex? then Failure(IndexReadError)
    else if store.meta.BadMeta? then Failure(MetaReadError)
    else if store.meta.texts.KeyMissing? || store.meta.dataframe.KeyMissing? then Failure(MissingKey)
    else Success(Loaded(store.index.index, store.meta.texts.v, store.meta.dataframe.v))
  }

  /** The two files are not replaced together. When the new index is
      written but the metadata file cannot be opened, preprocessing fails,
      yet the old metadata beside the new index still loads: metadata left
      from a dataset of another size pairs the index with texts it does not
      embed. */
  lemma TornWriteLoads(num: Numerics, env: Env)
    requires env.dirOk && env.csv.Csv? && !IsCurrent(env.store, env.csv.df)
    requires AllRender(num, IterRows(env.csv.df)) && env.encodeOk
    requires env.indexWrite == Written && env.metaWrite == OpenFailed
    requires env.store.meta.SavedMeta? && env.store.meta.texts.KeyHolds? && env.store.meta.dataframe.KeyHolds?
    requires |env.store.meta.texts.v| != |env.csv.df.rows|
    ensures !PreprocessData(num, env).ok
    ensures LoadPreprocessedData(PreprocessData(num, env).store).Success?
    ensures var l := LoadPreprocessedData(PreprocessData(num, env).store).value;
            l.index.embedded == Texts(num, IterRows(env.csv.df)) && l.index.embedded != l.texts
  {
  }

  /** Files a rebuild for `df` left behind load back as the row texts, an
      index over exactly those texts, and `df` itself. */
  lemma LoadAfterRebuild(num: Numerics, store: Store, df: Frame)
    requires Aligned(num, store, df)
    ensures LoadPreprocessedData(store).Success?
    ensures var l := LoadPreprocessedData(store).value;
            l.index.embedded == l.texts && l.dataframe == Some(df) && |l.texts| == |df.rows|
            && forall i :: 0 <= i < |df.rows| ==> l.texts[i] == RowToText(num, i, IterRows(df)[i])
  {
    forall i | 0 <= i < |df.rows|
      ensures Texts(num, IterRows(df))[i] == RowToText(num, i, IterRows(df)[i])
    {
      TextsAligned(num, IterRows(df), i);
    }
  }
}

=== FILE: llm.dfy ===
/** `GroqLLM`: the mode flag, the prompt serialiser, the demo-mode
    answers and the simulated streaming. The network call of the real mode
    is a parameter of the model. */
module LlmInterface {
  import opened Wrappers
  import opened Text
  import opened Retriever

  // ---------------------------------------------------------------- mode

  /** The interface's state: the key, and whether the real API is wanted. */
  datatype Llm = Llm(apiKey: string, useRealApi: bool)

  /** `GroqLLM(api_key)`: an absent key is stored as ""; the interface
      starts in demo mode whatever the key. */
  function Init(apiKey: Option<string>): (m: Llm)
    ensures !m.useRealApi
    ensures apiKey.Some? ==> m.apiKey == apiKey.value
    ensures apiKey.None? ==> m.apiKey == ""
  {
    Llm(if apiKey.Some? then apiKey.value else "", false)
  }

  /** `set_api_key`: stores the key; the real API is wanted exactly when
      the key is non-empty. */
  function SetApiKey(m: Llm, apiKey: string): (m': Llm)
    ensures m'.apiKey == apiKey
    ensures m'.useRealApi <==> |apiKey| > 0
  {
    Llm(apiKey, apiKey != "")
  }

  /** The guard of `generate_response`: the flag is set and the key is
      non-empty. */
  predicate UsesRealApi(m: Llm) {
    m.useRealApi && m.apiKey != ""
  }

  // ---------------------------------------------------------------- prompt

  /** One numbered context line: "{i}. {chunk}" and a blank line. */
  function Entry(i: nat, chunk: Hit): string {
    NatToString(i) + ". " + chunk.text + "\n\n"
  }

  /** The context lines, numbered from 1 in the order of the chunks. */
  function Entries(chunks: seq<Hit>): (es: seq<string>)
    ensures |es| == |chunks|
    ensures forall i :: 0 <= i < |chunks| ==> es[i] == Entry(i + 1, chunks[i])
  {
    seq(|chunks|, i requires 0 <= i < |chunks| => Entry(i + 1, chunks[i]))
  }

  /** The loop of `format_prompt` that builds the context block. */
  method FormatContext(chunks: seq<Hit>) returns (block: string)
    ensures block == Concat(Entries(chunks))
  {
    block := "";
    var i := 0;
    while i < |chunks|
      invariant 0 <= i <= |chunks|
      invariant block == Concat(Entries(chunks[..i]))
    {
      assert Entries(chunks[..i + 1]) == Entries(chunks[..i]) + [Entry(i + 1, chunks[i])];
      ConcatSnoc(Entries(chunks[..i]), Entry(i + 1, chunks[i]));
      block := block + Entry(i + 1, chunks[i]);
      i := i + 1;
    }
    assert chunks[..i] == chunks;
  }

  lemma {:induction false} ConcatSnoc(ss: seq<string>, s: string)
    ensures Concat(ss + [s]) == Concat(ss) + s
  {
    if ss == [] {
      assert [] + [s] == [s];
    } else {
      assert (ss + [s])[1..] == ss[1..] + [s];
      ConcatSnoc(ss[1..], s);
    }
  }

  /** The fixed instruction after the question and a blank line. */
  const Instruction: string := "Based on the context provided above, please answer the question. If the information needed to answer the question is not available in the context, please say so. Provide a clear, concise answer that is grounded in the data provided.\n\nAnswer:"

  /** `format_prompt`: the numbered context block after "Context:", then
      the question, then the instruction that asks for the answer. */
  function FormatPrompt(query: string, chunks: seq<Hit>): (p: string)
    ensures StartsWith(p, "Context:\n" + Concat(Entries(chunks)))
    ensures EndsWith(p, Instruction)
    ensures Contains(p, "Question: " + query + "\n\n")
  {
    PromptParts(Concat(Entries(chunks)), query, Instruction);
    Prompt(Concat(Entries(chunks)), query, Instruction)
  }

  /** Each piece of a concatenation occurs in it. */
  lemma {:induction false} ConcatContains(ss: seq<string>, k: nat)
    requires k < |ss|
    ensures Contains(Concat(ss), ss[k])
  {
    if k == 0 {
      ContainsPrefix(ss[0], Concat(ss[1..]));
    } else {
      ConcatContains(ss[1..], k - 1);
      ContainsAfter(ss[0], Concat(ss[1..]), ss[k]);
    }
  }

  /** The prompt carries every chunk as its numbered line. */
  lemma PromptShape(query: string, chunks: seq<Hit>)
    ensures forall i :: 0 <= i < |chunks| ==> Contains(FormatPrompt(query, chunks), Entry(i + 1, chunks[i]))
  {
    var block := Concat(Entries(chunks));
    forall i | 0 <= i < |chunks|
      ensures Contains(FormatPrompt(query, chunks), Entry(i + 1, chunks[i]))
    {
      ConcatContains(Entries(chunks), i);
      PromptKeepsBlock(block, query, Instruction, Entry(i + 1, chunks[i]));
    }
  }

  /** The prompt template over any block, query and instruction. */
  function Prompt(block: string, query: string, instruction: string): string {
    "Context:\n" + block + "\n\nQuestion: " + query + "\n\n" + instruction
  }

  lemma PromptParts(block: string, query: string, instruction: string)
    ensures StartsWith(Prompt(block, query, instruction), "Context:\n" + block)
    ensures EndsWith(Prompt(block, query, instruction), instruction)
    ensures Contains(Prompt(block, query, instruction), "Question: " + query + "\n\n")
  {
    var head := "Context:\n" + block + "\n\n";
    var q := "Question: " + query + "\n\n";
    var p := Prompt(block, query, instruction);
    assert p == head + (q + instruction);
    assert p[..|"Context:\n" + block|] == "Context:\n" + block;
    assert p[|p| - |instruction|..] == instruction;
    ContainsPrefix(q, instruction);
    ContainsAfter(head, q + instruction, q);
  }

  lemma PromptKeepsBlock(block: string, query: string, instruction: string, sub: string)
    requires Contains(block, sub)
    ensures Contains(Prompt(block, query, instruction), sub)
  {
    var tail := "\n\nQuestion: " + query + "\n\n" + instruction;
    assert Prompt(block, query, instruction) == "Context:\n" + (block + tail);
    ContainsBefore(block, tail, sub);
    ContainsAfter("Context:\n", block + tail, sub);
  }

  /** The instruction closes the prompt by asking for the answer. */
  lemma InstructionAsksForAnswer()
    ensures EndsWith(Instruction, "\n\nAnswer:")
  {
  }

  /** The prompt depends on the chunks' texts and order only: scores are
      ignored. */
  lemma PromptIgnoresScores(query: string, a: seq<Hit>, b: seq<Hit>)
    requires |a| == |b|
    requires forall i :: 0 <= i < |a| ==> a[i].text == b[i].text
    ensures FormatPrompt(query, a) == FormatPrompt(query, b)
  {
    assert Entries(a) == Entries(b);
  }

  /** No chunks, no context lines: the block is empty exactly then. */
  lemma {:induction false} EmptyContextBlock(chunks: seq<Hit>)
    ensures Concat(Entries(chunks)) == "" <==> chunks == []
  {
    if chunks != [] {
      var es := Entries(chunks);
      assert Concat(es) == es[0] + Concat(es[1..]);
      assert |Entry(1, chunks[0])| > 0;
    }
  }

  // ---------------------------------------------------------------- demo mode

  /** The demo answer when there is no context at all. */
  const NoInfo: string := "I don't have enough information to answer that question based on the available data."

  /** The keywords of the demo dispatch, in the order they are tried. */
  const Keywords: seq<string> := ["approval", "denied", "income", "self-employed", "credit", "urban"]

  /** The canned analysis for each keyword, in the same order. */
  const Canned: seq<string> := [
    "📊 Based on the loan data analysis, several key factors influence loan approval rates:\n\n• **Credit History**: The strongest predictor - applicants with established credit history show 80%+ approval rates\n• **Income Stability**: Higher and more stable income correlates with better approval chances\n• **Employment Type**: Salaried employees typically have higher approval rates than self-employed\n• **Debt-to-Income Ratio**: Lower ratios significantly improve approval likelihood\n• **Property Location**: Urban areas often show different approval patterns than rural areas",
    "❌ Common reasons for loan denials in the dataset include:\n\n• **Poor Credit History**: Missing or negative credit history is the top reason\n• **Insufficient Income**: Income too low relative to loan amount requested\n• **High Existing Debt**: Existing financial obligations affecting capacity\n• **Employment Instability**: Irregular income patterns, especially for self-employed\n• **Incomplete Documentation**: Missing required paperwork or verification\n• **Property Issues**: Problems with collateral or property valuation",
    "💰 Income analysis reveals important patterns:\n\n• **Primary Income Impact**: Higher applicant income strongly correlates with approval\n• **Combined Income Effect**: Co-applicant income can significantly boost approval chances\n• **Income Thresholds**: Clear patterns emerge around certain income levels\n• **Stability Factor**: Consistent income history often more important than peak amounts\n• **Source Verification**: Documented, verifiable income streams crucial for approval",
    "🏢 Self-employed applicants face unique challenges:\n\n• **Documentation Requirements**: Need more extensive financial records\n• **Income Variability**: Fluctuating income creates uncertainty for lenders\n• **Lower Approval Rates**: Generally 15-20% lower than salaried employees\n• **Higher Scrutiny**: More detailed financial analysis required\n• **Mitigation Strategies**: Strong credit history and higher down payments help",
    "📈 Credit history analysis shows:\n\n• **Critical Factor**: Most important single predictor of loan approval\n• **Binary Impact**: Having vs. not having credit history creates stark differences\n• **Score Ranges**: Higher credit scores correlate with faster approval processes\n• **Historical Trends**: Consistent payment history valued over absolute scores\n• **Recovery Patterns**: Recent positive history can offset past issues",
    "🏙️ Property area analysis reveals:\n\n• **Urban Areas**: Higher approval rates, better property valuations\n• **Semi-Urban**: Moderate approval rates, mixed property dynamics\n• **Rural Areas**: Lower approval rates, property valuation challenges\n• **Market Factors**: Local economic conditions influence decisions\n• **Infrastructure**: Better connectivity and amenities support approvals"]

  const Header: string := "🤖 **Demo Mode Response:**\n\n"

  const Footer: string := "\n\n*Note: This is a sample response. Configure your Groq API key for real AI-powered analysis.*"

  /** The answer when no keyword matches: it reports how many context
      chunks it was given. */
  function DefaultAnswer(n: nat): string {
    Header + CountSentence(n) + Insights
  }

  function CountSentence(n: nat): string {
    "Based on the " + NatToString(n) + " most relevant data points I found, here are some key insights:"
  }

  /** The generic insights closing the default answer. */
  const Insights: string := "\n\n• The loan dataset contains patterns across multiple dimensions including income, credit history, employment, and geography\n• Approval decisions appear to be influenced by a combination of financial and demographic factors  \n• There are clear differences in approval rates across different applicant segments\n• Risk assessment seems to consider both quantitative metrics and qualitative factors\n\n*For detailed, AI-powered analysis of your specific question, please configure your Groq API key in the settings above.*\n\n**Sample insights from the data:**\n- Credit history presence/absence significantly impacts outcomes\n- Income levels and stability play crucial roles\n- Employment type creates different risk profiles\n- Property location affects approval patterns"

  /** The position of the first key that occurs in `text`. */
  function FirstMatch(text: string, keys: seq<string>): (r: Option<nat>)
    ensures r.Some? ==> r.value < |keys| && Contains(text, keys[r.value])
                        && forall j :: 0 <= j < r.value ==> !Contains(text, keys[j])
    ensures r.None? ==> forall j :: 0 <= j < |keys| ==> !Contains(text, keys[j])
  {
    if keys == [] then None
    else if Contains(text, keys[0]) then Some(0)
    else match FirstMatch(text, keys[1..])
      case None => None
      case Some(i) => Some(i + 1)
  }

  /** The loop of the demo dispatch over the keywords. */
  method MatchKeyword(text: string, keys: seq<string>) returns (r: Option<nat>)
    ensures r == FirstMatch(text, keys)
  {
    var i := 0;
    while i < |keys|
      invariant 0 <= i <= |keys|
      invariant forall j :: 0 <= j < i ==> !Contains(text, keys[j])
    {
      if Contains(text, keys[i]) {
        return Some(i);
      }
      i := i + 1;
    }
    return None;
  }

  /** The demo branch of `generate_response`: without context the fixed
      no-information text, whatever the query; with context an answer
      marked by the demo header. */
  function DemoResponse(query: string, chunks: seq<Hit>): (r: string)
    ensures chunks == [] ==> r == NoInfo
    ensures chunks != [] ==> StartsWith(r, Header)
  {
    if chunks == [] then NoInfo else DemoAnswer(query, |chunks|)
  }

  /** The demo answer with `n` retrieved records: the canned text of the
      first keyword found, or the default answer. */
  function DemoAnswer(query: string, n: nat): (r: string)
    ensures StartsWith(r, Header)
  {
    match FirstMatch(Lower(query), Keywords)
    case Some(i) =>
      HeaderFirst(Header, Canned[i] + Footer);
      Header + Canned[i] + Footer
    case None =>
      HeaderFirst(Header, CountSentence(n) + Insights);
      DefaultAnswer(n)
  }

  /** `generate_response`, with the network reply of `generate_real_response`
      (the model's answer or its error text) as the function `groq` of the
      key and the prompt. The network is used only with the flag set and a
      non-empty key; any other answer is the demo one. */
  function GenerateResponse(m: Llm, query: string, chunks: seq<Hit>, groq: (string, string) -> string): (r: string)
    ensures UsesRealApi(m) ==> r == groq(m.apiKey, FormatPrompt(query, chunks))
    ensures !UsesRealApi(m) ==> r == DemoResponse(query, chunks)
    ensures !UsesRealApi(m) && chunks != [] ==> StartsWith(r, Header)
  {
    if UsesRealApi(m) then groq(m.apiKey, FormatPrompt(query, chunks)) else DemoResponse(query, chunks)
  }

  /** A fresh interface answers in demo mode; after `set_api_key` it sends
      the prompt with that key exactly when the key is non-empty. */
  lemma ResponseRouting(query: string, chunks: seq<Hit>, groq: (string, string) -> string, m: Llm, key: string, initial: Option<string>)
    ensures GenerateResponse(Init(initial), query, chunks, groq) == DemoResponse(query, chunks)
    ensures key != "" ==> GenerateResponse(SetApiKey(m, key), query, chunks, groq) == groq(key, FormatPrompt(query, chunks))
    ensures key == "" ==> GenerateResponse(SetApiKey(m, key), query, chunks, groq) == DemoResponse(query, chunks)
  {
  }

  /** With context, the demo answer is the canned text of the first
      keyword, in dispatch order, that occurs in the lower-cased query,
      between the demo header and footer. */
  lemma DemoPicksFirstKeyword(query: string, chunks: seq<Hit>, k: nat)
    requires chunks != [] && k < |Keywords|
    requires Contains(Lower(query), Keywords[k])
    requires forall j :: 0 <= j < k ==> !Contains(Lower(query), Keywords[j])
    ensures DemoResponse(query, chunks) == Header + Canned[k] + Footer
  {
    FirstMatchUnique(Lower(query), Keywords, k);
  }

  /** The first match is the only key position that matches with no
      earlier key matching. */
  lemma FirstMatchUnique(text: string, keys: seq<string>, k: nat)
    requires k < |keys| && Contains(text, keys[k])
    requires forall j :: 0 <= j < k ==> !Contains(text, keys[j])
    ensures FirstMatch(text, keys) == Some(k)
  {
  }

  /** With context and no keyword in the query, the demo answer is the
      default one, which reports the number of chunks. */
  lemma DemoDefault(query: string, chunks: seq<Hit>)
    requires chunks != []
    requires forall j :: 0 <= j < |Keywords| ==> !Contains(Lower(query), Keywords[j])
    ensures DemoResponse(query, chunks) == DefaultAnswer(|chunks|)
    ensures Contains(DemoResponse(query, chunks), CountSentence(|chunks|))
  {
    NoMatchIsNone(Lower(query), Keywords);
    Infix(Header, CountSentence(|chunks|), Insights);
  }

  lemma NoMatchIsNone(text: string, keys: seq<string>)
    requires forall j :: 0 <= j < |keys| ==> !Contains(text, keys[j])
    ensures FirstMatch(text, keys) == None
  {
  }

  lemma Infix(a: string, b: string, c: string)
    ensures Contains(a + b + c, b)
  {
    assert a + b + c == a + (b + c);
    ContainsPrefix(b, c);
    ContainsAfter(a, b + c, b);
  }

  lemma HeaderFirst(a: string, b: string)
    ensures StartsWith(a + b, a)
  {
    assert (a + b)[..|a|] == a;
  }

  // ---------------------------------------------------------------- streaming

  /** `generate_streaming_response` without its delay: each word of the
      response, followed by one space. */
  function StreamPieces(response: string): seq<string> {
    Pieces(Words(response))
  }

  /** Each word followed by one space, one piece per word. */
  function Pieces(ws: seq<string>): (ps: seq<string>)
    ensures |ps| == |ws|
    ensures forall i :: 0 <= i < |ws| ==> ps[i] == ws[i] + " "
  {
    seq(|ws|, i requires 0 <= i < |ws| => ws[i] + " ")
  }

  /** What the client accumulates: the pieces put together. */
  lemma {:induction false} StreamedIsSpaced(ws: seq<string>)
    ensures Concat(Pieces(ws)) == Spaced(ws)
  {
    if ws != [] {
      assert Pieces(ws)[1..] == Pieces(ws[1..]);
      StreamedIsSpaced(ws[1..]);
    }
  }

  /** Re-splitting the streamed text gives back exactly the words of the
      response, and the streamed pieces carry every non-whitespace
      character of the response, in order: only whitespace is normalised. */
  lemma StreamRoundTrip(response: string)
    ensures Words(Concat(StreamPieces(response))) == Words(response)
    ensures Ink(Concat(StreamPieces(response))) == Ink(response)
  {
    var ws := Words(response);
    StreamedIsSpaced(ws);
    WordsAreWords(response);
    WordsOfSpaced(ws);
    WordsKeepInk(Concat(StreamPieces(response)));
    WordsKeepInk(response);
  }

  /** The streamed pieces of the response `generate_response` gives. */
  function GenerateStreamingResponse(m: Llm, query: string, chunks: seq<Hit>, groq: (string, string) -> string): (ps: seq<string>)
    ensures forall i :: 0 <= i < |ps| ==> EndsWith(ps[i], " ") && NoSpace(ps[i][..|ps[i]| - 1]) && |ps[i]| > 1
  {
    var response := GenerateResponse(m, query, chunks, groq);
    WordsAreWords(response);
    StreamPieces(response)
  }
}

=== FILE: retriever.dfy ===
/** `RAGRetriever`: the post-processing of a similarity search into
    (text, score) results, the load-or-preprocess fallback that fills the
    retriever's state, and the dataset overview. The search itself is a
    foreign numeric routine; its output enters the model as a parameter. */
module Retriever {
  import opened Wrappers
  import opened Cells
  import opened IndexStore

  // ---------------------------------------------------------------- search output

  /** One column of `index.search` output for a single query: the
      similarity score and the position of the stored vector, or -1 for a
      slot the index could not fill. */
  datatype Slot = Slot(score: real, idx: int)

  /** One retrieved document: its canonical text and its score. */
  datatype Hit = Hit(text: string, score: real)

  /** What the flat index promises about one search: exactly `k` slots,
      each either -1 or the position of a stored vector, the stored
      positions pairwise distinct, and scores non-increasing across the
      filled slots. */
  predicate SearchContract(ntotal: nat, k: nat, slots: seq<Slot>) {
    |slots| == k
    && (forall j :: 0 <= j < |slots| ==> slots[j].idx == -1 || 0 <= slots[j].idx < ntotal)
    && (forall j, j' :: 0 <= j < j' < |slots| && slots[j].idx != -1 && slots[j'].idx != -1 ==>
          slots[j].idx != slots[j'].idx && slots[j].score >= slots[j'].score)
  }

  /** Every slot is -1 or a position of `texts`. */
  predicate InRange(texts: seq<string>, slots: seq<Slot>) {
    forall j :: 0 <= j < |slots| ==> slots[j].idx == -1 || 0 <= slots[j].idx < |texts|
  }

  // ---------------------------------------------------------------- retrieve

  /** The error Python's `texts[idx]` raises for a position outside the
      list. */
  datatype RetrieveError = IndexError

  /** Python `xs[i]`: a negative position counts from the end. */
  function PyIndex(xs: seq<string>, i: int): (r: Result<string, RetrieveError>)
    ensures 0 <= i < |xs| ==> r == Success(xs[i])
    ensures r.Failure? <==> i < -|xs| || |xs| <= i
  {
    if 0 <= i < |xs| then Success(xs[i])
    else if -|xs| <= i < 0 then Success(xs[|xs| + i])
    else Failure(IndexError)
  }

  /** The results `retrieve` builds from `slots`, as a reference
      definition: the -1 slots dropped, every other slot looked up in
      `texts`, search order kept; the first failing lookup raises. */
  function Kept(texts: seq<string>, slots: seq<Slot>): Result<seq<Hit>, RetrieveError> {
    if slots == [] then Success([])
    else
      var last := slots[|slots| - 1];
      match Kept(texts, slots[..|slots| - 1])
      case Failure(e) => Failure(e)
      case Success(front) =>
        if last.idx == -1 then Success(front)
        else match PyIndex(texts, last.idx)
          case Failure(e) => Failure(e)
          case Success(t) => Success(front + [Hit(t, last.score)])
  }

  /** The loop of `retrieve` over the search output of one query. */
  method Retrieve(texts: seq<string>, slots: seq<Slot>) returns (r: Result<seq<Hit>, RetrieveError>)
    ensures r == Kept(texts, slots)
  {
    var results: seq<Hit> := [];
    var i := 0;
    while i < |slots|
      invariant 0 <= i <= |slots|
      invariant Kept(texts, slots[..i]) == Success(results)
    {
      assert slots[..i + 1][..i] == slots[..i];
      var slot := slots[i];
      if slot.idx != -1 {
        var t := PyIndex(texts, slot.idx);
        if t.Failure? {
          KeptFailureSticks(texts, slots, i + 1);
          return Failure(IndexError);
        }
        results := results + [Hit(t.value, slot.score)];
      }
      i := i + 1;
    }
    assert slots[..i] == slots;
    return Success(results);
  }

  /** Once a prefix of the slots raises, the whole search output does. */
  lemma {:induction false} KeptFailureSticks(texts: seq<string>, slots: seq<Slot>, n: nat)
    requires n <= |slots|
    requires Kept(texts, slots[..n]).Failure?
    ensures Kept(texts, slots) == Failure(IndexError)
    decreases |slots| - n
  {
    KeptOnlyIndexError(texts, slots[..n]);
    if n < |slots| {
      assert slots[..n + 1][..n] == slots[..n];
      KeptFailureSticks(texts, slots, n + 1);
    } else {
      assert slots[..n] == slots;
    }
  }

  lemma KeptOnlyIndexError(texts: seq<string>, slots: seq<Slot>)
    ensures Kept(texts, slots).Failure? ==> Kept(texts, slots).error == IndexError
  {
  }

  /** The positions of the filled slots, in increasing order. */
  function Filled(slots: seq<Slot>): (ps: seq<nat>)
    ensures forall k :: 0 <= k < |ps| ==> ps[k] < |slots| && slots[ps[k]].idx != -1
  {
    if slots == [] then []
    else
      var front := Filled(slots[..|slots| - 1]);
      if slots[|slots| - 1].idx == -1 then front else front + [|slots| - 1]
  }

  /** `Filled` lists each filled slot exactly once, in search order. */
  lemma {:induction false} FilledExactly(slots: seq<Slot>)
    ensures forall k, k' :: 0 <= k < k' < |Filled(slots)| ==> Filled(slots)[k] < Filled(slots)[k']
    ensures forall j :: 0 <= j < |slots| && slots[j].idx != -1 ==> j in Filled(slots)
    ensures |Filled(slots)| <= |slots|
  {
    if slots != [] {
      var front := slots[..|slots| - 1];
      FilledExactly(front);
      forall j | 0 <= j < |slots| && slots[j].idx != -1
        ensures j in Filled(slots)
      {
        if j < |slots| - 1 {
          assert front[j] == slots[j];
        }
      }
    }
  }

  /** With every slot -1 or in range, `retrieve` does not raise, and its
      k-th result is the text and score of the k-th filled slot. */
  lemma {:induction false} KeptInRange(texts: seq<string>, slots: seq<Slot>)
    requires InRange(texts, slots)
    ensures Kept(texts, slots).Success?
    ensures var rs := Kept(texts, slots).value;
            var ps := Filled(slots);
            |rs| == |ps|
            && forall k :: 0 <= k < |rs| ==> rs[k] == Hit(texts[slots[ps[k]].idx], slots[ps[k]].score)
  {
    if slots != [] {
      var front := slots[..|slots| - 1];
      assert InRange(texts, front) by {
        forall j | 0 <= j < |front|
          ensures front[j].idx == -1 || 0 <= front[j].idx < |texts|
        {
          assert front[j] == slots[j];
        }
      }
      KeptInRange(texts, front);
      var ps := Filled(slots);
      var rs := Kept(texts, slots).value;
      forall k | 0 <= k < |rs|
        ensures rs[k] == Hit(texts[slots[ps[k]].idx], slots[ps[k]].score)
      {
        if k < |Filled(front)| {
          assert ps[k] == Filled(front)[k];
          assert front[ps[k]] == slots[ps[k]];
        }
      }
    }
  }

  /** Search output that keeps the index's contract, over an index built
      from `texts`, is in range for `texts`: every lookup succeeds. */
  lemma ContractInRange(texts: seq<string>, k: nat, slots: seq<Slot>)
    requires SearchContract(|texts|, k, slots)
    ensures InRange(texts, slots)
    ensures Kept(texts, slots).Success?
  {
    KeptInRange(texts, slots);
  }

  /** Under the index's contract, `retrieve` returns at most `k` results,
      in the order of the search, so with non-increasing scores. */
  lemma RetrieveUnderContract(texts: seq<string>, k: nat, slots: seq<Slot>)
    requires SearchContract(|texts|, k, slots)
    ensures Kept(texts, slots).Success?
    ensures var rs := Kept(texts, slots).value;
            |rs| <= k
            && forall a, b :: 0 <= a < b < |rs| ==> rs[a].score >= rs[b].score
  {
    KeptInRange(texts, slots);
    FilledExactly(slots);
    var rs := Kept(texts, slots).value;
    var ps := Filled(slots);
    forall a, b | 0 <= a < b < |rs|
      ensures rs[a].score >= rs[b].score
    {
      assert ps[a] < ps[b];
    }
  }

  // ---------------------------------------------------------------- load_data

  /** Why the retriever cannot start: the load raised, or preprocessing
      returned False (the bare `Exception` of the fallback). */
  datatype StartError = LoadFailed(error: LoadError) | PreprocessFailed

  /** What `load_data` leaves behind: the loaded triple or the exception,
      whether it had to preprocess, and the files afterwards. */
  datatype LoadOutcome = LoadOutcome(result: Result<Loaded, StartError>, preprocessed: bool, store: Store)

  /** `load_data`: load; on not-found only, preprocess and load again. What
      a successful start holds is exactly what the final files load as, and
      without preprocessing the files are untouched. */
  function LoadData(num: Numerics, env: Env): (r: LoadOutcome)
    ensures r.result.Success? ==> LoadPreprocessedData(r.store) == Success(r.result.value)
    ensures !r.preprocessed ==> r.store == env.store
    ensures r.preprocessed ==> r.store == PreprocessData(num, env).store
  {
    var first := LoadPreprocessedData(env.store);
    if first.Success? then LoadOutcome(Success(first.value), false, env.store)
    else if first.error != NotFound then LoadOutcome(Failure(LoadFailed(first.error)), false, env.store)
    else
      var out := PreprocessData(num, env);
      if !out.ok then LoadOutcome(Failure(PreprocessFailed), true, out.store)
      else match LoadPreprocessedData(out.store)
        case Success(l) => LoadOutcome(Success(l), true, out.store)
        case Failure(e) => LoadOutcome(Failure(LoadFailed(e)), true, out.store)
  }

  /** Files that are not found are never current, so preprocessing after a
      not-found load always rebuilds. */
  lemma NotFoundIsStale(store: Store, df: Frame)
    requires LoadPreprocessedData(store) == Failure(NotFound)
    ensures !IsCurrent(store, df)
    ensures Freshness(store, df) == Rebuild
  {
  }

  /** The fallback preprocesses exactly when the first load is not-found;
      every other load error propagates with the files untouched. A
      successful start holds exactly what one load of the final files
      returns. */
  lemma LoadDataFallback(num: Numerics, env: Env)
    ensures LoadData(num, env).preprocessed <==> LoadPreprocessedData(env.store) == Failure(NotFound)
    ensures LoadPreprocessedData(env.store).Success? ==>
              LoadData(num, env) == LoadOutcome(Success(LoadPreprocessedData(env.store).value), false, env.store)
    ensures LoadPreprocessedData(env.store).Failure? && LoadPreprocessedData(env.store).error != NotFound ==>
              LoadData(num, env) == LoadOutcome(Failure(LoadFailed(LoadPreprocessedData(env.store).error)), false, env.store)
    ensures LoadData(num, env).result.Success? ==>
              LoadPreprocessedData(LoadData(num, env).store) == Success(LoadData(num, env).result.value)
  {
  }

  /** After a not-found load, `load_data` succeeds exactly when the rebuild
      does, and raises the preprocessing failure otherwise; on success
      index, texts and dataframe come from the one fresh set of files: the
      dataset itself and its row texts. */
  lemma LoadDataRebuilds(num: Numerics, env: Env)
    requires LoadPreprocessedData(env.store) == Failure(NotFound)
    ensures LoadData(num, env).result.Success? <==>
              env.dirOk && env.csv.Csv? && AllRender(num, IterRows(env.csv.df)) && env.encodeOk
              && env.indexWrite == Written && env.metaWrite == Written
    ensures LoadData(num, env).result.Failure? ==> LoadData(num, env).result == Failure(PreprocessFailed)
    ensures LoadData(num, env).result.Success? ==>
              var l := LoadData(num, env).result.value;
              l.dataframe == Some(env.csv.df) && l.texts == Texts(num, IterRows(env.csv.df)) && l.index.embedded == l.texts
  {
    if env.dirOk && env.csv.Csv? {
      NotFoundIsStale(env.store, env.csv.df);
      var out := PreprocessData(num, env);
      if out.ok {
        LoadAfterRebuild(num, out.store, env.csv.df);
      }
    }
  }

  /** Only the existence of the index file is checked before reuse: an
      unreadable index beside current metadata is kept as it is, and the
      load that follows raises instead of rebuilding. */
  lemma UnreadableIndexIsKept(num: Numerics, env: Env)
    requires env.dirOk && env.csv.Csv? && env.store.index == BadIndex
    requires env.store.meta.SavedMeta? && env.store.meta.dataframe == KeyHolds(Some(env.csv.df))
    ensures PreprocessData(num, env) == Outcome(true, env.store)
    ensures LoadData(num, env) == LoadOutcome(Failure(LoadFailed(IndexReadError)), false, env.store)
  {
  }

  // ---------------------------------------------------------------- dataset info

  /** `get_dataset_info` without its per-column statistics: nothing when no
      dataframe is loaded, otherwise the row count, the column names and
      the first rows. */
  datatype DatasetInfo = NoInfo | Info(totalRows: nat, columns: seq<string>, sampleRows: seq<Row>)

  /** `DataFrame.head()`: the first five rows. */
  const HeadRows: nat := 5

  function GetDatasetInfo(dataframe: Option<Frame>): (info: DatasetInfo)
    ensures dataframe.None? <==> info.NoInfo?
    ensures dataframe.Some? ==>
              info.totalRows == |dataframe.value.rows| && info.columns == dataframe.value.columns
              && |info.sampleRows| <= HeadRows && |info.sampleRows| <= |dataframe.value.rows|
              && info.sampleRows == dataframe.value.rows[..|info.sampleRows|]
              && (|info.sampleRows| < HeadRows ==> info.sampleRows == dataframe.value.rows)
  {
    match dataframe
    case None => NoInfo
    case Some(df) =>
      var n := if |df.rows| < HeadRows then |df.rows| else HeadRows;
      Info(|df.rows|, df.columns, df.rows[..n])
  }
}

=== FILE: text.dfy ===
/** The few Python string operations the core relies on, over `seq<char>`:
    `str.strip()`, `str.lower()`, `str.upper()`, `str.split()` with no
    argument, the `in` substring test, and decimal rendering of integers.
    Whitespace and case are the ASCII ones. */
module Text {

  /** The ASCII characters `str.isspace` accepts: space, tab, line feed,
      vertical tab, form feed, carriage return, and the four information
      separators U+001C to U+001F. */
  predicate IsSpace(c: char) {
    c == ' ' || '\t' <= c <= '\r' || '\U{001C}' <= c <= '\U{001F}'
  }

  predicate AllSpace(s: string) {
    forall i :: 0 <= i < |s| ==> IsSpace(s[i])
  }

  predicate NoSpace(s: string) {
    forall i :: 0 <= i < |s| ==> !IsSpace(s[i])
  }

  // ---------------------------------------------------------------- strip

  /** Drops leading whitespace. */
  function TrimStart(s: string): (r: string)
    ensures |r| <= |s|
    ensures r == [] || !IsSpace(r[0])
  {
    if |s| > 0 && IsSpace(s[0]) then TrimStart(s[1..]) else s
  }

  /** What `TrimStart` drops is whitespace, and what it keeps is a suffix. */
  lemma {:induction false} TrimStartSplits(s: string)
    ensures TrimStart(s) == s[|s| - |TrimStart(s)|..]
    ensures AllSpace(s[..|s| - |TrimStart(s)|])
  {
    if |s| > 0 && IsSpace(s[0]) {
      var r := TrimStart(s[1..]);
      TrimStartSplits(s[1..]);
      assert s[..|s| - |r|] == [s[0]] + s[1..][..|s[1..]| - |r|];
    }
  }

  /** Drops trailing whitespace. */
  function TrimEnd(s: string): (r: string)
    ensures |r| <= |s|
    ensures r == [] || !IsSpace(r[|r| - 1])
  {
    if |s| > 0 && IsSpace(s[|s| - 1]) then TrimEnd(s[..|s| - 1]) else s
  }

  /** What `TrimEnd` drops is whitespace, and what it keeps is a prefix. */
  lemma {:induction false} TrimEndSplits(s: string)
    ensures TrimEnd(s) == s[..|TrimEnd(s)|]
    ensures AllSpace(s[|TrimEnd(s)|..])
  {
    if |s| > 0 && IsSpace(s[|s| - 1]) {
      var r := TrimEnd(s[..|s| - 1]);
      TrimEndSplits(s[..|s| - 1]);
      assert s[|r|..] == s[..|s| - 1][|r|..] + [s[|s| - 1]];
    }
  }

  /** `r` is `s` with its leading and trailing whitespace removed. */
  ghost predicate IsStripOf(s: string, r: string) {
    exists i, j :: 0 <= i <= j <= |s| && r == s[i..j] && AllSpace(s[..i]) && AllSpace(s[j..])
      && (r == [] || (!IsSpace(r[0]) && !IsSpace(r[|r| - 1])))
  }

  /** Python `str.strip()`. */
  function Strip(s: string): string {
    TrimEnd(TrimStart(s))
  }

  /** `Strip` removes exactly the outer whitespace. */
  lemma StripRemovesOuterSpace(s: string)
    ensures IsStripOf(s, Strip(s))
  {
    var t := TrimStart(s);
    var r := TrimEnd(t);
    TrimStartSplits(s);
    TrimEndSplits(t);
    var i := |s| - |t|;
    var j := i + |r|;
    assert r == s[i..j];
    assert s[j..] == t[|r|..];
  }

  /** Stripping a string without outer whitespace leaves it unchanged. */
  lemma StripNoOuterSpace(s: string)
    requires s == [] || (!IsSpace(s[0]) && !IsSpace(s[|s| - 1]))
    ensures Strip(s) == s
  {
  }

  // ---------------------------------------------------------------- case

  function LowerChar(c: char): char {
    if 'A' <= c <= 'Z' then (c as int + 32) as char else c
  }

  function UpperChar(c: char): char {
    if 'a' <= c <= 'z' then (c as int - 32) as char else c
  }

  /** Python `str.lower()`, ASCII letters only. */
  function Lower(s: string): (r: string)
    ensures |r| == |s|
    ensures forall i :: 0 <= i < |s| ==> r[i] == LowerChar(s[i])
  {
    seq(|s|, i requires 0 <= i < |s| => LowerChar(s[i]))
  }

  /** Python `str.upper()`, ASCII letters only. */
  function Upper(s: string): (r: string)
    ensures |r| == |s|
    ensures forall i :: 0 <= i < |s| ==> r[i] == UpperChar(s[i])
  {
    seq(|s|, i requires 0 <= i < |s| => UpperChar(s[i]))
  }

  // ---------------------------------------------------------------- integers

  function DigitChar(d: nat): (c: char)
    requires d < 10
  {
    ['0', '1', '2', '3', '4', '5', '6', '7', '8', '9'][d]
  }

  function DigitValue(c: char): nat {
    if '0' <= c <= '9' then c as int - '0' as int else 0
  }

  predicate IsDigit(c: char) {
    '0' <= c <= '9'
  }

  /** Decimal rendering of a natural number, as Python's `str(int)`. */
  function NatToString(n: nat): (r: string)
    ensures |r| > 0
    ensures forall i :: 0 <= i < |r| ==> IsDigit(r[i])
    ensures |r| > 1 ==> r[0] != '0'
  {
    if n < 10 then [DigitChar(n)] else NatToString(n / 10) + [DigitChar(n % 10)]
  }

  /** Python `str(int)` for any integer. */
  function IntToString(i: int): (r: string)
    ensures |r| > 0
    ensures i >= 0 ==> r == NatToString(i)
    ensures i < 0 ==> r == "-" + NatToString(-i)
  {
    if i >= 0 then NatToString(i) else "-" + NatToString(-i)
  }

  /** The value a string of decimal digits denotes. */
  function DecimalValue(s: string): nat {
    if s == [] then 0 else DecimalValue(s[..|s| - 1]) * 10 + DigitValue(s[|s| - 1])
  }

  /** Reading back a rendered natural number gives the number. */
  lemma {:induction false} NatToStringRoundTrip(n: nat)
    ensures DecimalValue(NatToString(n)) == n
  {
    var r := NatToString(n);
    if n >= 10 {
      NatToStringRoundTrip(n / 10);
      assert r[..|r| - 1] == NatToString(n / 10);
    }
  }

  // ---------------------------------------------------------------- substring

  /** `sub` occurs in `text` starting at position `i`. */
  predicate OccursAt(sub: string, text: string, i: nat) {
    i + |sub| <= |text| && text[i..i + |sub|] == sub
  }

  /** Python `sub in text`, as a left-to-right scan. */
  predicate Contains(text: string, sub: string)
    decreases |text|
  {
    (|sub| <= |text| && text[..|sub|] == sub) || (|text| > 0 && Contains(text[1..], sub))
  }

  /** The scan finds `sub` exactly when it occurs at some position. */
  lemma {:induction false} ContainsIff(text: string, sub: string)
    ensures Contains(text, sub) <==> exists i :: 0 <= i <= |text| && OccursAt(sub, text, i)
    decreases |text|
  {
    if |sub| <= |text| && text[..|sub|] == sub {
      assert OccursAt(sub, text, 0);
    } else if |text| > 0 {
      ContainsIff(text[1..], sub);
      if Contains(text[1..], sub) {
        var i :| 0 <= i <= |text[1..]| && OccursAt(sub, text[1..], i);
        assert text[i + 1..i + 1 + |sub|] == text[1..][i..i + |sub|];
        assert OccursAt(sub, text, i + 1);
      } else {
        forall i | 0 <= i <= |text| && OccursAt(sub, text, i)
          ensures false
        {
          if i == 0 {
          } else {
            assert text[1..][i - 1..i - 1 + |sub|] == text[i..i + |sub|];
            assert OccursAt(sub, text[1..], i - 1);
          }
        }
      }
    } else {
      forall i | 0 <= i <= |text| && OccursAt(sub, text, i)
        ensures false
      {
      }
    }
  }

  // ---------------------------------------------------------------- split

  /** The longest whitespace-free prefix of `s`. */
  function TakeWord(s: string): (w: string)
    ensures |w| <= |s| && w == s[..|w|]
    ensures NoSpace(w)
    ensures |w| < |s| ==> IsSpace(s[|w|])
    ensures |s| > 0 && !IsSpace(s[0]) ==> |w| > 0
  {
    if |s| == 0 || IsSpace(s[0]) then []
    else
      var w := TakeWord(s[1..]);
      assert [s[0]] + w == s[..1 + |w|];
      [s[0]] + w
  }

  /** Python `str.split()` with no argument: the maximal runs of
      non-whitespace characters, in order. */
  function Words(s: string): seq<string>
    decreases |s|
  {
    var t := TrimStart(s);
    if t == [] then []
    else
      var w := TakeWord(t);
      [w] + Words(t[|w|..])
  }

  /** Every word is non-empty and free of whitespace. */
  lemma {:induction false} WordsAreWords(s: string)
    ensures forall k :: 0 <= k < |Words(s)| ==> |Words(s)[k]| > 0 && NoSpace(Words(s)[k])
    decreases |s|
  {
    var t := TrimStart(s);
    if t != [] {
      var w := TakeWord(t);
      var rest := Words(t[|w|..]);
      WordsAreWords(t[|w|..]);
      assert Words(s) == [w] + rest;
      forall k | 0 <= k < |Words(s)|
        ensures |Words(s)[k]| > 0 && NoSpace(Words(s)[k])
      {
        if k > 0 {
          assert Words(s)[k] == rest[k - 1];
        }
      }
    }
  }

  /** The characters of `s` that are not whitespace, in order. */
  function Ink(s: string): (r: string)
    ensures NoSpace(r)
  {
    if s == [] then []
    else if IsSpace(s[0]) then Ink(s[1..])
    else [s[0]] + Ink(s[1..])
  }

  function Concat(ss: seq<string>): string {
    if ss == [] then [] else ss[0] + Concat(ss[1..])
  }

  lemma {:induction false} InkAppend(a: string, b: string)
    ensures Ink(a + b) == Ink(a) + Ink(b)
  {
    if a == [] {
      assert a + b == b;
    } else {
      assert (a + b)[1..] == a[1..] + b;
      InkAppend(a[1..], b);
    }
  }

  lemma {:induction false} InkOfSpaces(s: string)
    requires AllSpace(s)
    ensures Ink(s) == []
  {
    if s != [] {
      InkOfSpaces(s[1..]);
    }
  }

  lemma {:induction false} InkOfWord(s: string)
    requires NoSpace(s)
    ensures Ink(s) == s
  {
    if s != [] {
      InkOfWord(s[1..]);
    }
  }

  /** Splitting into words loses only whitespace: the words, put back
      together, carry exactly the non-whitespace characters of `s`. */
  lemma {:induction false} WordsKeepInk(s: string)
    ensures Concat(Words(s)) == Ink(s)
    decreases |s|
  {
    var t := TrimStart(s);
    TrimStartSplits(s);
    assert s == s[..|s| - |t|] + t;
    InkAppend(s[..|s| - |t|], t);
    InkOfSpaces(s[..|s| - |t|]);
    if t != [] {
      var w := TakeWord(t);
      assert t == w + t[|w|..];
      InkAppend(w, t[|w|..]);
      InkOfWord(w);
      WordsKeepInk(t[|w|..]);
      assert Words(s) == [w] + Words(t[|w|..]);
      assert Words(s)[1..] == Words(t[|w|..]);
    }
  }

  /** `TakeWord` stops exactly at the end of a word followed by
      whitespace or by nothing. */
  lemma TakeWordOf(w: string, rest: string)
    requires NoSpace(w)
    requires rest == [] || IsSpace(rest[0])
    ensures TakeWord(w + rest) == w
  {
    var s := w + rest;
    var t := TakeWord(s);
    assert rest != [] ==> s[|w|] == rest[0];
  }

  /** Each word followed by one space: the text a client receives when the
      words are streamed one after another. */
  function Spaced(ws: seq<string>): string {
    if ws == [] then [] else ws[0] + " " + Spaced(ws[1..])
  }

  /** Splitting words that were written out with single spaces gives them
      back. */
  lemma {:induction false} WordsOfSpaced(ws: seq<string>)
    requires forall k :: 0 <= k < |ws| ==> |ws[k]| > 0 && NoSpace(ws[k])
    ensures Words(Spaced(ws)) == ws
  {
    if ws != [] {
      var w := ws[0];
      var rest := Spaced(ws[1..]);
      var s := Spaced(ws);
      assert s == w + (" " + rest);
      assert TrimStart(s) == s;
      TakeWordOf(w, " " + rest);
      assert s[|w|..] == " " + rest;
      assert TrimStart(" " + rest) == TrimStart(rest) by {
        assert (" " + rest)[1..] == rest;
      }
      assert Words(" " + rest) == Words(rest);
      WordsOfSpaced(ws[1..]);
      assert Words(s) == [w] + ws[1..];
    }
  }

  /** A text still contains `sub` once something is put after it. */
  lemma ContainsBefore(a: string, b: string, sub: string)
    requires Contains(a, sub)
    ensures Contains(a + b, sub)
  {
    ContainsIff(a, sub);
    var i :| 0 <= i <= |a| && OccursAt(sub, a, i);
    assert (a + b)[i..i + |sub|] == a[i..i + |sub|];
    assert OccursAt(sub, a + b, i);
    ContainsIff(a + b, sub);
  }

  // ---------------------------------------------------------------- affixes

  predicate StartsWith(s: string, prefix: string) {
    |prefix| <= |s| && s[..|prefix|] == prefix
  }

  predicate EndsWith(s: string, suffix: string) {
    |suffix| <= |s| && s[|s| - |suffix|..] == suffix
  }

  /** A text still contains `sub` once something is put before it. */
  lemma {:induction false} ContainsAfter(a: string, b: string, sub: string)
    requires Contains(b, sub)
    ensures Contains(a + b, sub)
    decreases |a|
  {
    if a == [] {
      assert a + b == b;
    } else {
      assert (a + b)[1..] == a[1..] + b;
      ContainsAfter(a[1..], b, sub);
    }
  }

  // ---------------------------------------------------------------- templates

  /** seps[0] + parts[0] + seps[1] + ... + parts[n-1] + seps[n]: a
      template's fixed separators with its variable parts set between them. */
  function Interleave(seps: seq<string>, parts: seq<string>): string
    requires |seps| == |parts| + 1
    decreases |parts|
  {
    if parts == [] then seps[0] else seps[0] + parts[0] + Interleave(seps[1..], parts[1..])
  }

  lemma InterleaveStartsWithSeparator(seps: seq<string>, parts: seq<string>)
    requires |seps| == |parts| + 1
    ensures StartsWith(Interleave(seps, parts), seps[0])
  {
  }

  /** The filled template opens with its first separator, first part and
      second separator. */
  lemma InterleaveStarts(seps: seq<string>, parts: seq<string>)
    requires |seps| == |parts| + 1 && |parts| > 0
    ensures StartsWith(Interleave(seps, parts), seps[0] + parts[0] + seps[1])
  {
    var rest := Interleave(seps[1..], parts[1..]);
    InterleaveStartsWithSeparator(seps[1..], parts[1..]);
    assert Interleave(seps, parts) == seps[0] + parts[0] + rest;
    assert rest == seps[1] + rest[|seps[1]|..];
  }

  /** The filled template closes with its last separator but one, last part
      and last separator. */
  lemma {:induction false} InterleaveEnds(seps: seq<string>, parts: seq<string>)
    requires |seps| == |parts| + 1 && |parts| > 0
    ensures EndsWith(Interleave(seps, parts), seps[|seps| - 2] + parts[|parts| - 1] + seps[|seps| - 1])
    decreases |parts|
  {
    var whole := Interleave(seps, parts);
    if |parts| == 1 {
      assert whole == seps[0] + parts[0] + Interleave(seps[1..], parts[1..]);
      assert whole == seps[0] + parts[0] + seps[1];
    } else {
      var rest := Interleave(seps[1..], parts[1..]);
      InterleaveEnds(seps[1..], parts[1..]);
      assert whole == (seps[0] + parts[0]) + rest;
      var suffix := seps[|seps| - 2] + parts[|parts| - 1] + seps[|seps| - 1];
      assert whole[|whole| - |suffix|..] == rest[|rest| - |suffix|..];
    }
  }

  /** Where separator `k` starts in the filled template: after the first
      `k` separators and parts. */
  function SlotStart(seps: seq<string>, parts: seq<string>, k: nat): nat
    requires |seps| == |parts| + 1 && k <= |parts|
    decreases k
  {
    if k == 0 then 0 else |seps[0]| + |parts[0]| + SlotStart(seps[1..], parts[1..], k - 1)
  }

  /** Part `k` sits in the filled template exactly at its slot, between
      separators `k` and `k + 1`, and the next slot starts right after
      part `k`: the parts appear in order, one after another. */
  lemma {:induction false} InterleaveSlotAt(seps: seq<string>, parts: seq<string>, k: nat)
    requires |seps| == |parts| + 1 && k < |parts|
    ensures OccursAt(seps[k] + parts[k] + seps[k + 1], Interleave(seps, parts), SlotStart(seps, parts, k))
    ensures SlotStart(seps, parts, k + 1) == SlotStart(seps, parts, k) + |seps[k]| + |parts[k]|
    decreases k
  {
    var whole := Interleave(seps, parts);
    var rest := Interleave(seps[1..], parts[1..]);
    assert whole == seps[0] + parts[0] + rest;
    if k == 0 {
      InterleaveStarts(seps, parts);
    } else {
      InterleaveSlotAt(seps[1..], parts[1..], k - 1);
      var o := SlotStart(seps[1..], parts[1..], k - 1);
      var slot := seps[k] + parts[k] + seps[k + 1];
      var h := |seps[0]| + |parts[0]|;
      assert whole[h + o..h + o + |slot|] == rest[o..o + |slot|];
    }
  }

  /** Each part appears in the filled template between the separators that
      surround it. */
  lemma InterleaveSlot(seps: seq<string>, parts: seq<string>, k: nat)
    requires |seps| == |parts| + 1 && k < |parts|
    ensures Contains(Interleave(seps, parts), seps[k] + parts[k] + seps[k + 1])
  {
    InterleaveSlotAt(seps, parts, k);
    ContainsIff(Interleave(seps, parts), seps[k] + parts[k] + seps[k + 1]);
  }

  lemma ContainsPrefix(a: string, b: string)
    ensures Contains(a + b, a)
  {
    assert (a + b)[..|a|] == a;
  }
}

=== FILE: wrappers.dfy ===
/** Failure-carrying values shared by the model: an optional value and a
    value-or-error result, the two shapes Python's `None` and raised
    exceptions take here. */
module Wrappers {

  datatype Option<+T> = None | Some(value: T)

  datatype Result<+T, +E> = Success(value: T) | Failure(error: E)
}
